=== FILE: README.md ===
# kbfn dual-role keyboard layers, in Dafny

kbfn sits between a grabbed keyboard and a virtual output device. Its core
is a **dual-role key**: tapped, it types itself; held, it changes what
other keys do. The repository writes this tap/hold engine four times:

- `DualRoleFn`: SPACE, with a fixed navigation keymap;
- `DualRoleSwitchLayer`: SPACE, with a configured keymap;
- `DualRoleMod`: any key, with a companion modifier pressed around the
  keys used during the hold;
- the standalone SpaceFn program: the fixed keymap again, with
  module-global state and batch processing.

Around the engine sit a stateless `RemapLayer` and the
`convert_keycode_map` helper that normalises configured key maps.

The model has one engine (`DualRoleEngine`), parameterised by the
activation key and a hold action:

- `SwitchKeymap(map)`: rewrite keys through a keymap;
- `EmitModifier(mod)`: press a companion modifier around them.

The engine is a pure step function. It maps the engine state and one
input to the next state and the sequence of events written downstream.
An input is either an event from upstream or `TimerFires`, the firing of
the delayed first-key callback. Each source class is an instantiation:

- `DualRoleFn`: `FnConfig`;
- `DualRoleLayer.Configure`: the configured keymap;
- `DualRoleMod.New`: the companion modifier;
- `SpaceFn`: the batch loop with its sync reports.

Timestamps are integer microseconds (`sec * 1_000_000 + usec`). The hold
threshold is 500 000 µs and the first-key delay is 50 000 µs, both
compared with strict `<`, as in the source. Key codes are the Linux
input-event-codes values.

Four things are proved about the engine:

- **Pressed-key bookkeeping.** Every operation states that the engine's
  pressed set is exactly what its own written output implies (`Track`).
- **Release-code round trip.** A rewritten key's up is written with the
  code its down was written with, when that up arrives while the layer is
  inactive, or active with the stashed key resolved
  (`ReleaseUsesRecordedCode`). It does not hold on every path: see the
  two stranded-key traces below.
- **Single replay.** Within one activation the stashed first key is
  resolved, and so replayed through the hold action, at most once
  (`PassedStaysSet`, `TimerResolvesOnce`). A tap forwards an unresolved
  stash without resolving it, so a second activation-key up with no down
  between forwards it again (`RepeatedReleaseTrace`).
- **Balanced modifier.** An activation of the companion-modifier layer
  writes as many modifier downs as ups, at most one of each, when the
  inputs during the hold do not touch the modifier key itself
  (`ModifierActivationBalanced`). The activation key's own autorepeat
  and repeated downs are allowed.

Concrete traces are proved in `Scenarios`. Two of them show a rewritten
key stranded down. In one, a key repeat after deactivation consumes the
release record. In the other, the key's up is stashed by the next
activation and a tap forwards it unrewritten. The model keeps the
source's behaviour in both.

Behaviours of the code worth knowing (the model follows the code):

- Only a keymap layer that is **inactive** translates ups through the
  release records. It treats a key **hold** the same way and consumes
  the record on the hold. That is the cause of the stranded key above.
  While active, ups go through the keymap itself (`RunKeepsRecords`
  shows the two agree).
- The companion-modifier layer keeps no release records and drops
  nothing while inactive: a stray up is written.
- While active, a keymap layer drops keys the keymap does not map. Only
  a rewritten key **down** sets `used`.
- An activation-key up is handled in every state. So a second up
  without a down in between can produce a second tap pair.
- `used` survives deactivation. After a used activation of the
  companion-modifier layer, a second activation-key up with no down
  between writes a second modifier up (`RepeatedModifierReleaseTrace`).
- A stashed first key can be lost. A key struck less than the first-key
  delay before a release that is not a tap, in an activation that was
  not used, is never written: the release writes nothing and the
  callback finds the layer inactive. With a keymap the key's up is
  dropped too; with a companion modifier it is written as a stray up
  (`LongReleaseLosesStashTrace`, `ModifierLongReleaseLosesStash`).

Files:

- `outcomes.dfy`: the `Option` and `Result` wrappers.
- `events.dfy`: events and pressed-key tracking.
- `engine.dfy`: the engine.
- `engine_props.dfy`: its properties.
- `dual_role.dfy`, `dual_role_layer.dfy`, `dual_role_modifier.dfy`,
  `space_fn.dfy`: the four instantiations.
- `remap.dfy`, `keycode_map.dfy`: the two helpers.
- `scenarios.dfy`: traces.

## Model

| member | source | states |
|---|---|---|
| Events.Press | dual_role_layer.py:43-48 | A key down adds its code to the pressed set. A key up removes it. A hold or a non-key event leaves the set unchanged. |
| Events.TrackAppend | dual_role_layer.py:50-58 | Tracking pressed keys over two written sequences in turn is tracking their concatenation. Each written event updates the set in order. |
| Events.TrackIgnoresHolds | dual_role_layer.py:43-48 | Writing only holds and non-key events never changes which keys are down. |
| DualRoleEngine.Write | dual_role_layer.py:50-58 | Writing an event sends exactly that event downstream. The only state it changes is the pressed set, which is updated from the event written. |
| DualRoleEngine.Activate | dual_role_layer.py:32-38 | Activation sets the layer active and records the time. It clears `used`, the stashed event and the passed flag. It leaves the pressed keys and release records alone. |
| DualRoleEngine.Act | dual_role_layer.py:99-110 | With a keymap, an unmapped key is dropped with no other effect. A mapped key is written with the keymap's code. Its down records input to output and sets `used`; its up forgets the record; a hold changes neither. Nothing else in the state changes, and the pressed set follows the output. With a companion modifier, the key is written unchanged and `used` becomes set. It is preceded by one modifier down with its timestamp exactly when `used` was not yet set. |
| DualRoleEngine.HandleActive | dual_role_layer.py:81-97 | Handling a key while active keeps the activation, its time and any stashed event. Its only change to the stash is to fill an empty one with the event, and it does so exactly for a key that is neither the activation key nor already down. Non-key events and keys already down are written unchanged and leave the stash alone. Once `passed` or `used` is set, it stays set. The pressed set follows the output, and a companion modifier leaves release records alone. |
| DualRoleEngine.TimerFired | dual_role_layer.py:70-79 | The callback does nothing when inactive or already resolved. Otherwise it resolves the stashed event: afterwards `passed` is set, and activation and stash are unchanged. What it writes is stated by `KeymapTimerResolves` and `ModifierTimerResolves`. |
| DualRoleEngine.Release | dual_role_layer.py:117-124 | The activation key's up always deactivates and changes nothing else besides the pressed set. A tap writes the activation key's down and the up, both at the release time. A still-unresolved stashed event less than the first-key delay old follows the tap. Otherwise nothing is written with a keymap. With a companion modifier, a release that is not a tap writes one modifier up exactly when the activation was used. |
| DualRoleEngine.HandleInactive | dual_role_layer.py:128-137 | While inactive, a keymap layer writes an up or hold with its recorded output code and consumes the record. It drops the event when that code is not down. Downs and non-key events pass unchanged. While inactive, a companion-modifier layer writes every other event unchanged. |
| DualRoleEngine.Send | dual_role_layer.py:112-137 | For every event, the pressed set after the layer's `send` is what its written output implies. |
| DualRoleEngine.Run | dual_role_layer.py:43-58 | Over any sequence of inputs, the pressed set is exactly the set replayed from everything written. |
| EngineProperties.ActivationDownStartsActivation | dual_role_layer.py:113-115 | An activation-key down while inactive writes nothing. It starts an activation at the event's time, with `used`, the stash and `passed` cleared. |
| EngineProperties.ActivationRepeatSwallowed | dual_role_modifier.py:121-123 | An activation-key hold, or a down while already active, is swallowed with no effect. |
| EngineProperties.KeymapRelease | dual_role_layer.py:117-124 | With a keymap, the activation key's up writes the tap pair, then the recent unresolved stash, exactly for a tap. Otherwise it writes nothing. It always deactivates, keeping `used` and the release records. |
| EngineProperties.ModifierRelease | dual_role_modifier.py:125-132 | With a companion modifier, a used activation writes exactly one modifier up on release. A tap writes the tap pair first. An unused non-tap writes nothing. |
| EngineProperties.RolloverPassesThrough | dual_role_layer.py:89-110 | While active, a key already down is written unchanged whatever the hold action. |
| EngineProperties.FirstKeyIsStashed | dual_role_layer.py:89-93 | While active, the first key that is not down is stashed and nothing is written. |
| EngineProperties.KeymapSecondKeyReplaysFirst | dual_role_layer.py:95-110 | A second new key first resolves the stash. The output is the stashed key's translation followed by the new key's, so output order follows input order. |
| EngineProperties.ModifierSecondKeyReplaysFirst | dual_role_modifier.py:110-118 | With a companion modifier, the second new key yields a modifier down at the stashed key's time, then the stashed key, then the new key. |
| EngineProperties.KeymapResolvedKey | dual_role_layer.py:99-108 | Once the stash is resolved, an unmapped new key is dropped without any change. A mapped one is rewritten: a down records the mapping and sets `used`, an up forgets it, a hold leaves it. |
| EngineProperties.ModifierActiveNeverRewrites | dual_role_modifier.py:96-118 | With a companion modifier, while active, everything written is the event, the stashed event or a modifier down. The event itself is written unless it was just stashed. |
| EngineProperties.TimerNoOpWhenResolvedOrInactive | dual_role_layer.py:74-79 | The callback leaves state and output untouched when inactive or already resolved. |
| EngineProperties.TimerResolvesOnce | dual_role_layer.py:77-79 | The callback resolves the stash, so a second firing in the same activation does nothing. |
| EngineProperties.KeymapTimerResolves | dual_role_layer.py:77-108 | With a keymap, a callback that finds the stash unresolved resolves it and writes it: unchanged if its code was down before activation, otherwise through the keymap (nothing if unmapped). |
| EngineProperties.ModifierTimerResolves | dual_role_modifier.py:85-118 | With a companion modifier, a callback that finds the stash unresolved resolves it and writes it. A modifier down at the stashed key's time precedes it exactly when its code was not already down and the activation was not yet used; then `used` becomes set. |
| EngineProperties.ResolvedPendingIsInert | dual_role_layer.py:95-97 | A resolved stashed event is never consulted again: replacing it changes no input's output. |
| EngineProperties.PassedStaysSet | dual_role_layer.py:70-97 | Once the stash is resolved it stays resolved over any inputs until the next activation, so it is replayed at most once. |
| EngineProperties.RunKeepsRecords | dual_role_layer.py:102-108 | Over any inputs, every release record maps an input code to exactly the code the keymap gives it. |
| EngineProperties.ReleaseUsesRecordedCode | dual_role.py:141-145 | A rewritten key's up is written with the recorded output code, and the record is removed. This holds whether the layer is still active with the stash resolved or already inactive. |
| EngineProperties.KeymapInactivePassesDowns | dual_role.py:173-174 | While inactive, a keymap layer writes key downs and non-key events unchanged. |
| EngineProperties.KeymapInactiveRelease | dual_role.py:165-172 | While inactive, an up or hold goes out with its recorded code and the record is consumed. It is dropped when that code is not down. The pressed set follows. |
| EngineProperties.InactiveRepeatsKeepPressed | dual_role_layer.py:128-137 | While the layer is inactive, any run of key autorepeats writes only holds, leaves the layer inactive and leaves the pressed set unchanged, for either hold action. |
| EngineProperties.KeymapUsedOnlyByDown | dual_role.py:139-143 | With a keymap, `used` only becomes set when a rewritten key down is written. |
| EngineProperties.ModifierActiveCounts | dual_role_modifier.py:114-123 | While active, over any inputs other than the activation key's up and the modifier key, the layer writes exactly one modifier down when `used` flips, none otherwise, and no modifier up. The activation key's own holds and repeated downs are swallowed. |
| EngineProperties.ModifierActivationBalanced | dual_role_modifier.py:48-51 | Over one activation the modifier downs written equal the modifier ups written, and there is at most one of each. The activation runs from the key's down, through any inputs other than its up that do not touch the modifier (its own autorepeat included), to the key's up. |
| EngineProperties.RunSplit | space_fn.py:165-191 | Feeding two input sequences one after the other is feeding their concatenation. |
| KeycodeMap.Resolve | helpers.py:12-13 | A number stands for itself. A name resolves exactly when the name table has it, and then to the table's code. |
| KeycodeMap.ConvertKeycodeMap | helpers.py:8-16 | The conversion succeeds exactly when every key and value resolves. A failure names the first unknown name, the key's before the value's. The result's keys are exactly the resolved keys, and for keys that collide the later entry's value is kept. |
| Remap.Configure | remap_layer.py:16-17 | A missing or empty configuration gives the empty map. Otherwise the layer's map is the converted configuration, with the same success condition, keys and last-entry rule. |
| Remap.Send | remap_layer.py:19-25 | A key event with a mapped code has that code replaced, keeping its time and value. Every other event passes unchanged. |
| Remap.SendAll | remap_layer.py:19-25 | Exactly one output event per input event, each depending only on that event and the map. |
| Remap.UnconfiguredIsIdentity | remap_layer.py:16-17 | With no configuration the layer is the identity. |
| Remap.SingleSubstitution | remap_layer.py:20-22 | The substitution is applied once and never chained. |
| Remap.TwoLayersCompose | remap_layer.py:19-25 | Two remap layers in a row are one layer with the composed map. |
| Remap.TwoLayersComposeAll | remap_layer.py:19-25 | Over any event stream, two remap layers in a row write exactly what one layer with the composed map writes. |
| DualRoleFn.FixedKeymap | dual_role.py:14-56 | SPACE is neither rewritten nor produced by the fixed keymap. |
| DualRoleFn.FixedKeymapNavigation | dual_role.py:30-42 | I, J, K and L give the arrows. H, N and M give BACKSPACE, ENTER and DELETE. U, O, ' and / give HOME, END, PAGEUP and PAGEDOWN. |
| DualRoleFn.FixedKeymapFunctionRow | dual_role.py:44-55 | 1 to 0, minus and equal give F1 to F12. |
| DualRoleFn.FixedKeymapPassThrough | dual_role.py:14-18 | Z, X, C and V map to themselves, and A is not mapped. |
| DualRoleFn.FixedKeymapModifiers | dual_role.py:20-28 | The eight modifiers, left and right Ctrl, Shift, Alt and Meta, map to themselves. |
| DualRoleFn.UnmappedKeyDropped | dual_role.py:136-137 | While active with the stash resolved, a key outside the keymap that is not down is dropped with no other effect. |
| DualRoleFn.UsedOnlyByTranslatedDown | dual_role.py:139-143 | Whenever an event sets `used`, the output contains a key down whose code is a keymap output. |
| DualRoleLayer.Configure | dual_role_layer.py:29-30 | The layer uses SPACE. A missing or empty configuration gives an empty keymap. Otherwise the keymap is the converted configuration, and an unknown name fails. |
| DualRoleLayer.UnconfiguredDropsHeldKeys | dual_role_layer.py:99-100 | With an empty keymap, every new key after the first is dropped while SPACE is held. |
| DualRoleMod.New | dual_role_modifier.py:31-38 | The activation key and modifier are the given ones. Every instance starts idle with its own empty pressed set and release records. |
| DualRoleMod.InactivePassesEverything | dual_role_modifier.py:134-137 | While inactive, every event other than the activation key's is written unchanged, stray ups included. |
| DualRoleMod.ModifierBeforeFirstClassifiedKey | dual_role_modifier.py:114-118 | Once the stash is resolved, a new key is preceded by a modifier down exactly when the activation was not yet used. Afterwards it is used. |
| DualRoleMod.TapForwardsPendingWithoutModifier | dual_role_modifier.py:125-132 | After a tap, a recent unresolved stashed event follows the tap pair with no modifier down. |
| SpaceFn.HandleEvents | space_fn.py:165-194 | A batch's events all go through the engine in order, so a dropped event skips only itself. Exactly one sync follows the whole batch. |
| SpaceFn.OnTimer | space_fn.py:110-119 | The callback writes the engine's output for the timer and no sync of its own. |
| SpaceFn.Wake | space_fn.py:204-205 | One wakeup writes the engine's output for its inputs, with one sync for a batch and none for the timer. |
| SpaceFn.RunSession | space_fn.py:202-205 | Over a session, the events written are exactly the engine's output for all inputs in order, and there is one sync per batch. |
| Scenarios.HoldTrace | dual_role_layer.py:95-108 | SPACE↓@0, I↓@80ms, I↑@150ms, SPACE↑@200ms writes I as UP down and up and nothing for SPACE, for any keymap sending I to UP. |
| Scenarios.HoldWithTimerTrace | dual_role_layer.py:70-79 | The same trace with the callback firing after I↓ writes the same output. |
| Scenarios.TapWritesSpace | dual_role.py:154-157 | SPACE↓@0 then SPACE↑@100ms writes SPACE down and up at 100 ms. |
| Scenarios.RolloverThenTap | dual_role.py:118-161 | X↓ before SPACE↓, X↑ during the hold, then SPACE↑ gives X↓, X↑ and the tap pair. |
| Scenarios.QuickKeyTrace | dual_role_layer.py:122-124 | A key struck 10 ms before a tap release follows the tap pair untranslated, and its up passes too. |
| Scenarios.ReleaseRecordTrace | dual_role_layer.py:128-135 | J resolved as LEFT during the hold is released as LEFT after SPACE is released. |
| Scenarios.StrandedKeyTrace | dual_role_layer.py:128-135 | A repeat of J after SPACE's release consumes the record, so J's up is dropped and LEFT stays down. |
| Scenarios.StashedUpStrandsKeyTrace | dual_role_layer.py:89-124 | J resolved as LEFT, SPACE released and pressed again: J's up is stashed by the new activation and a quick tap forwards it as J's up, so LEFT stays down and J's record stays. |
| Scenarios.RepeatedReleaseTrace | dual_role_layer.py:117-124 | A tap forwards the unresolved stash without resolving it, so a second SPACE up with no down between writes the tap pair and the stash again. |
| Scenarios.LongReleaseLosesStashTrace | dual_role_layer.py:74-133 | SPACE↓@0, J↓@590ms, SPACE↑@600ms, the callback, J↑@650ms writes nothing at all: the stash is neither tapped nor resolved, and J's up is dropped. |
| Scenarios.ModifierHoldWrapsKey | dual_role_modifier.py:110-132 | With SPACE and left Ctrl, a C held past the delay gives Ctrl↓, C↓, C↑, Ctrl↑. |
| Scenarios.ModifierLongReleaseLosesStash | dual_role_modifier.py:85-137 | With SPACE and left Ctrl, the same long release loses C's down and writes only a stray C up. |
| Scenarios.RepeatedModifierReleaseTrace | dual_role_modifier.py:48-51 | After a used activation, a second SPACE up writes a second Ctrl up. |
| Scenarios.HoldTranslatesThroughKeymap | dual_role.py:30 | The I/UP trace holds for the fixed keymap. |
| Scenarios.HoldWithTimerTranslatesThroughKeymap | dual_role.py:107-116 | The I/UP trace with the callback firing after I↓ holds for the fixed keymap. |
| Scenarios.QuickKeyAfterTapIsUntranslated | dual_role.py:154-161 | The quick-key trace holds for the fixed keymap: J follows the tap pair as J, not LEFT. |
| Scenarios.ReleaseAfterDeactivationUsesRecord | dual_role.py:165-172 | The release-record trace holds for the fixed keymap: J is released as LEFT. |
| Scenarios.RepeatAfterDeactivationStrandsKey | dual_role.py:165-170 | The stranded-key trace holds for the fixed keymap. |
| Scenarios.StashedUpAfterReactivationStrandsKey | dual_role.py:118-161 | The stashed-up trace strands LEFT for the fixed keymap too. |
| Scenarios.RepeatedReleaseForwardsStashTwice | dual_role.py:154-161 | The repeated-release trace holds for the fixed keymap. |

## Left out

- **Device I/O.** Reading and grabbing the keyboard, the virtual output device, and the `InputDeviceReader`/`EventWriter` classes of base.py are not modelled. A layer's output is the sequence of events it writes.
- **Process glue.** `main`, the shutdown future and the signal handlers of space_fn.py are not modelled, nor is kbfn.py, which builds the layer pipeline. None of them decides what is written.
- **Asyncio scheduling.** The `asyncio.sleep` and `create_task` of the first-key callback are not modelled. The callback reads no clock, only the active and passed flags, so it is an explicit `TimerFires` input. When it fires relative to other events is up to the caller.
- **Float timestamps.** `event.timestamp()` is a float of seconds. The model uses integer microseconds, so float rounding at the threshold boundaries is not modelled.
- **Logging and the debug key-name lookup.** These have no effect on output.
- **Key values outside 0, 1 and 2.** The debug tuple index in `_write_event` raises on values above 2 and indexes negative ones from the end of the tuple; the model has only up, down and hold.
- **Shared mutable state.** The class-level `pressed_keys` and `release_key_codes` of `DualRoleFn` and `DualRoleSwitchLayer`, and the module-global `state` of space_fn.py, are shared. Every engine value in the model is its own state, so sharing across instances is not modelled.
- **The name table.** evdev's `ecodes` name table is a parameter (`names`), and an unknown name is an `Err` carrying that name, where the source raises a lookup error.
- DualRoleEngine.TimerFired: a stale callback with nothing stashed does nothing. In the source it sets the passed flag and then fails on the missing event; this can happen after a quick release and re-press. The crash is not modelled, and neither is its consequence: the passed flag stays set, so the next key that activation stashes is never written, not by a later key, not by its own callback and not by a tap. The model stashes and resolves that key normally.
- DualRoleEngine.Release: before any activation, the activation time is `None` and an up is never a tap. In the source, an unused release before any activation fails with an attribute error because `fn_activate_time` was never assigned.
- **Events mutated in place.** The source rewrites `event.code` on the event object itself (dual_role_layer.py:102, dual_role_layer.py:130, remap_layer.py:22), and a repeated tap writes the same stashed object twice. The model treats events as immutable values. Within one layer this cannot be observed, because only an unresolved stash is ever forwarded, and an unresolved stash has not been rewritten.
- **Batch boundaries.** Where one device read ends and the next begins is given as input to `SpaceFn.RunSession`. Any syncs the virtual device adds on its own are not modelled.

=== FILE: dual_role.dfy ===
/** `DualRoleFn`: the dual-role engine with SPACE as the activation key
    and a fixed navigation keymap as its hold action. */
module DualRoleFn {
  import opened Events
  import opened DualRoleEngine
  import EngineProperties

  /** The fixed keymap: letters and modifiers kept for shortcuts, the
      IJKL arrow cluster, editing keys, paging keys and the function row
      on the digit row. */
  function FixedKeymap(): (m: map<Code, Code>)
    // the activation key is neither rewritten nor produced
    ensures KEY_SPACE !in m && KEY_SPACE !in m.Values
  {
    map[
      KEY_Z := KEY_Z, KEY_X := KEY_X, KEY_C := KEY_C, KEY_V := KEY_V,
      KEY_LEFTCTRL := KEY_LEFTCTRL, KEY_LEFTSHIFT := KEY_LEFTSHIFT,
      KEY_LEFTALT := KEY_LEFTALT, KEY_LEFTMETA := KEY_LEFTMETA,
      KEY_RIGHTCTRL := KEY_RIGHTCTRL, KEY_RIGHTSHIFT := KEY_RIGHTSHIFT,
      KEY_RIGHTALT := KEY_RIGHTALT, KEY_RIGHTMETA := KEY_RIGHTMETA,
      KEY_I := KEY_UP, KEY_J := KEY_LEFT, KEY_K := KEY_DOWN, KEY_L := KEY_RIGHT,
      KEY_H := KEY_BACKSPACE, KEY_N := KEY_ENTER, KEY_M := KEY_DELETE,
      KEY_U := KEY_HOME, KEY_O := KEY_END, KEY_APOSTROPHE := KEY_PAGEUP, KEY_SLASH := KEY_PAGEDOWN,
      KEY_1 := KEY_F1, KEY_2 := KEY_F2, KEY_3 := KEY_F3, KEY_4 := KEY_F4,
      KEY_5 := KEY_F5, KEY_6 := KEY_F6, KEY_7 := KEY_F7, KEY_8 := KEY_F8,
      KEY_9 := KEY_F9, KEY_0 := KEY_F10, KEY_MINUS := KEY_F11, KEY_EQUAL := KEY_F12
    ]
  }

  /** The layer's configuration: SPACE, rewriting through the fixed keymap. */
  function FnConfig(): (cfg: Config)
    ensures cfg.activation == KEY_SPACE && cfg.action == SwitchKeymap(FixedKeymap())
  {
    Config(KEY_SPACE, SwitchKeymap(FixedKeymap()))
  }

  /** The arrow cluster, editing keys and paging keys. */
  lemma FixedKeymapNavigation()
    ensures var m := FixedKeymap();
      && m[KEY_I] == KEY_UP && m[KEY_J] == KEY_LEFT && m[KEY_K] == KEY_DOWN && m[KEY_L] == KEY_RIGHT
      && m[KEY_H] == KEY_BACKSPACE && m[KEY_N] == KEY_ENTER && m[KEY_M] == KEY_DELETE
      && m[KEY_U] == KEY_HOME && m[KEY_O] == KEY_END && m[KEY_APOSTROPHE] == KEY_PAGEUP && m[KEY_SLASH] == KEY_PAGEDOWN
  {
  }

  /** The digit row, minus and equal give F1 to F12. */
  lemma FixedKeymapFunctionRow()
    ensures var m := FixedKeymap();
      && m[KEY_1] == KEY_F1 && m[KEY_2] == KEY_F2 && m[KEY_3] == KEY_F3 && m[KEY_4] == KEY_F4
      && m[KEY_5] == KEY_F5 && m[KEY_6] == KEY_F6 && m[KEY_7] == KEY_F7 && m[KEY_8] == KEY_F8
      && m[KEY_9] == KEY_F9 && m[KEY_0] == KEY_F10 && m[KEY_MINUS] == KEY_F11 && m[KEY_EQUAL] == KEY_F12
  {
  }

  /** Z, X, C and V map to themselves, for the usual shortcuts; other
      keys, such as A, are not in the keymap. */
  lemma FixedKeymapPassThrough()
    ensures var m := FixedKeymap();
      && m[KEY_Z] == KEY_Z && m[KEY_X] == KEY_X && m[KEY_C] == KEY_C && m[KEY_V] == KEY_V
      && KEY_A !in m
  {
  }

  /** The eight modifiers map to themselves, so shortcuts can be held
      together with the layer. */
  lemma FixedKeymapModifiers()
    ensures var m := FixedKeymap();
      && m[KEY_LEFTCTRL] == KEY_LEFTCTRL && m[KEY_LEFTSHIFT] == KEY_LEFTSHIFT
      && m[KEY_LEFTALT] == KEY_LEFTALT && m[KEY_LEFTMETA] == KEY_LEFTMETA
      && m[KEY_RIGHTCTRL] == KEY_RIGHTCTRL && m[KEY_RIGHTSHIFT] == KEY_RIGHTSHIFT
      && m[KEY_RIGHTALT] == KEY_RIGHTALT && m[KEY_RIGHTMETA] == KEY_RIGHTMETA
  {
  }

  /** While active and with the first key resolved, a key outside the
      keymap that is not already down is dropped with no other effect. */
  lemma UnmappedKeyDropped(s: Engine, ev: Event)
    requires s.active && s.pending.Some? && s.passed
    requires ev.Key? && ev.code != KEY_SPACE && ev.code !in s.pressed && ev.code !in FixedKeymap()
    ensures Send(FnConfig(), s, ev) == Reaction(s, [])
  {
  }

  /** `used` becomes true only when a rewritten key down is written. */
  lemma UsedOnlyByTranslatedDown(s: Engine, ev: Event)
    requires !s.used
    ensures var r := Send(FnConfig(), s, ev);
      r.next.used ==> exists j | 0 <= j < |r.out| ::
        r.out[j].Key? && r.out[j].state == Down && r.out[j].code in FixedKeymap().Values
  {
    if ev.Key? && ev.code != KEY_SPACE && s.active {
      EngineProperties.KeymapUsedOnlyByDown(FnConfig(), s, ev);
    }
  }
}

=== FILE: dual_role_layer.dfy ===
/** `DualRoleSwitchLayer`: the dual-role engine with SPACE as the
    activation key and a configured keymap as its hold action. */
module DualRoleLayer {
  import opened Outcomes
  import opened Events
  import opened KeycodeMap
  import opened DualRoleEngine

  /** `configure`: the keymap is the converted configuration, or empty
      when none (or an empty one) is given; an unknown key name fails. */
  method Configure(names: map<string, Code>, codes: Option<seq<(Ident, Ident)>>)
    returns (r: Result<Config, string>)
    ensures r.Ok? ==> r.value.activation == KEY_SPACE && r.value.action.SwitchKeymap?
    ensures codes.None? || codes == Some([]) ==> r == Ok(Config(KEY_SPACE, SwitchKeymap(map[])))
    ensures codes.Some? ==> (r.Ok? <==> PrefixResolves(names, codes.value, |codes.value|))
    ensures r.Ok? && codes.Some? ==>
      r.value.action.keymap.Keys == set j | 0 <= j < |codes.value| :: CodeOf(names, codes.value[j].0)
    ensures r.Ok? && codes.Some? ==>
      forall j | 0 <= j < |codes.value| && LastFor(names, codes.value, |codes.value|, j) ::
        r.value.action.keymap[CodeOf(names, codes.value[j].0)] == CodeOf(names, codes.value[j].1)
  {
    var converted := ConvertKeycodeMap(names, if codes.Some? then codes.value else []);
    match converted
    case Ok(keymap) => r := Ok(Config(KEY_SPACE, SwitchKeymap(keymap)));
    case Err(e) => r := Err(e);
  }

  /** Without a configuration the keymap is empty, so once the first key
      is resolved every key that is not already down is dropped while
      SPACE is held. */
  lemma UnconfiguredDropsHeldKeys(s: Engine, ev: Event)
    requires s.active && s.pending.Some? && s.passed
    requires ev.Key? && ev.code != KEY_SPACE && ev.code !in s.pressed
    ensures Send(Config(KEY_SPACE, SwitchKeymap(map[])), s, ev) == Reaction(s, [])
  {
  }
}

=== FILE: dual_role_modifier.dfy ===
/** `DualRoleMod`: the dual-role engine with a chosen activation key whose
    hold action is a companion modifier, pressed before the first key
    used during the hold and released with the activation key. */
module DualRoleMod {
  import opened Events
  import opened DualRoleEngine

  /** A constructed layer: its parameters and its own state. */
  datatype Instance = Instance(cfg: Config, state: Engine)

  /** The constructor: the activation key and the modifier are parameters,
      and every instance starts idle with its own empty pressed set and
      release-code records. */
  function New(keyCode: Code, modCode: Code): (r: Instance)
    ensures r.cfg.activation == keyCode && r.cfg.action == EmitModifier(modCode)
    ensures !r.state.active && !r.state.used && r.state.pending.None? && !r.state.passed
    ensures r.state.pressed == {} && r.state.releaseCodes == map[]
  {
    Instance(Config(keyCode, EmitModifier(modCode)), Fresh())
  }

  /** While inactive, every event other than the activation key's is
      written unchanged, stray key ups included. */
  lemma InactivePassesEverything(keyCode: Code, modCode: Code, s: Engine, ev: Event)
    requires !s.active && (!ev.Key? || ev.code != keyCode)
    ensures Send(New(keyCode, modCode).cfg, s, ev) == Reaction(s.(pressed := Press(s.pressed, ev)), [ev])
  {
  }

  /** The first key classified while active is preceded by exactly one
      modifier down carrying its timestamp; later keys of the same
      activation get none. */
  lemma ModifierBeforeFirstClassifiedKey(keyCode: Code, modCode: Code, s: Engine, ev: Event)
    requires s.active && s.pending.Some? && s.passed
    requires ev.Key? && ev.code != keyCode && ev.code !in s.pressed
    ensures var r := Send(New(keyCode, modCode).cfg, s, ev);
      && r.out == (if s.used then [ev] else [Key(ev.time, modCode, Down), ev])
      && r.next.used
  {
  }

  /** After a tap, the unresolved first key is written after the tap pair
      without any modifier down. */
  lemma TapForwardsPendingWithoutModifier(keyCode: Code, modCode: Code, s: Engine, t: int)
    requires IsTap(s, t) && ForwardsPending(s, t)
    ensures Send(New(keyCode, modCode).cfg, s, Key(t, keyCode, Up)).out
      == [Key(t, keyCode, Down), Key(t, keyCode, Up), s.pending.value]
  {
  }
}

=== FILE: engine.dfy ===
/** The dual-role tap/hold engine shared by the three dual-role layers
    (fixed keymap, configured keymap, companion modifier) and by the
    batch-driven SpaceFn program.

    It is one sequential state machine: every input (an event from the
    layer above, or the firing of the first-key timer) yields the next
    engine state and the finite sequence of events written downstream.
    The two delays the source uses are the constants below. */
module DualRoleEngine {
  import opened Outcomes
  import opened Events

  /** MOD_THRESHOLD, 0.5 s: a release this soon after activation, with
      the hold action unused, is a tap. */
  const HoldThreshold: int := 500_000

  /** FIRST_KEY_DELAY, 0.05 s: how long the first key after activation
      is held back before it is classified. */
  const FirstKeyDelay: int := 50_000

  /** What holding the activation key does to other keys. */
  datatype HoldAction =
    | SwitchKeymap(keymap: map<Code, Code>)   // rewrite keys through a keymap
    | EmitModifier(modifier: Code)            // press a companion modifier around them

  datatype Config = Config(activation: Code, action: HoldAction)

  /** The per-instance state of one engine.
      `active`       the activation key is held (is_fn_active)
      `used`         the hold action fired in this activation (is_fn_used)
      `activatedAt`  time of the last activation (fn_activate_time); None
                     before the first one
      `pressed`      codes written down and not yet written up
      `releaseCodes` input code -> output code written for its down
      `pending`      the stashed first event of this activation
      `passed`       the stashed event has been resolved */
  datatype Engine = Engine(
    active: bool,
    used: bool,
    activatedAt: Option<int>,
    pressed: set<Code>,
    releaseCodes: map<Code, Code>,
    pending: Option<Event>,
    passed: bool)

  /** The next state and what was written downstream, in order. */
  datatype Reaction = Reaction(next: Engine, out: seq<Event>)

  /** An engine input: an event from upstream, or the delayed first-key
      callback coming due. */
  datatype Input = Receive(ev: Event) | TimerFires

  /** A newly constructed layer: idle, nothing down, nothing recorded. */
  function Fresh(): (s: Engine)
    ensures !s.active && !s.used && s.activatedAt.None?
    ensures s.pressed == {} && s.releaseCodes == map[]
    ensures s.pending.None? && !s.passed
  {
    Engine(false, false, None, {}, map[], None, false)
  }

  /** Writes one event downstream and records it in the pressed set. */
  function Write(s: Engine, ev: Event): (r: Reaction)
    ensures r.out == [ev]
    ensures r.next == s.(pressed := Track(s.pressed, r.out))
  {
    Reaction(s.(pressed := Press(s.pressed, ev)), [ev])
  }

  /** Runs `second` (computed from `first.next`) after `first`. */
  function Then(first: Reaction, second: Reaction): (r: Reaction)
    ensures r.next == second.next
    ensures r.out == first.out + second.out
  {
    Reaction(second.next, first.out + second.out)
  }

  /** Activation-key down while idle: start a new activation at `t`. */
  function Activate(s: Engine, t: int): (r: Engine)
    ensures r.active && !r.used && r.activatedAt == Some(t)
    ensures r.pending.None? && !r.passed
    ensures r.pressed == s.pressed && r.releaseCodes == s.releaseCodes
  {
    s.(active := true, used := false, activatedAt := Some(t), pending := None, passed := false)
  }

  /** The output code an up or hold of `code` is written with once the
      layer is inactive: the recorded one if any, else the code itself. */
  function ReleaseCode(s: Engine, code: Code): Code
  {
    if code in s.releaseCodes then s.releaseCodes[code] else code
  }

  /** A release at `t` completes a tap: the hold action never fired and
      the key was held for strictly less than the hold threshold. */
  predicate IsTap(s: Engine, t: int)
  {
    !s.used && s.activatedAt.Some? && t - s.activatedAt.value < HoldThreshold
  }

  /** After a tap the still-unresolved first event is forwarded when it
      is strictly less than the first-key delay older than the release. */
  predicate ForwardsPending(s: Engine, t: int)
  {
    s.pending.Some? && !s.passed && t - s.pending.value.time < FirstKeyDelay
  }

  /** The hold action applied to a classified key event: a key that was
      not down when it arrived, is not the activation key, and is not the
      stashed first event. */
  function Act(cfg: Config, s: Engine, ev: Event): (r: Reaction)
    requires ev.Key?
    ensures r.next.pressed == Track(s.pressed, r.out)
    ensures r.next == s.(pressed := r.next.pressed, used := r.next.used, releaseCodes := r.next.releaseCodes)
    ensures s.used ==> r.next.used
    // keymap: unmapped keys are dropped, mapped ones rewritten; a down
    // records input -> output and marks the activation used, an up
    // forgets the record
    ensures cfg.action.SwitchKeymap? && ev.code !in cfg.action.keymap ==> r == Reaction(s, [])
    ensures cfg.action.SwitchKeymap? && ev.code in cfg.action.keymap ==>
      && r.out == [Key(ev.time, cfg.action.keymap[ev.code], ev.state)]
      && (r.next.used <==> s.used || ev.state == Down)
      && r.next.releaseCodes == match ev.state
           case Down => s.releaseCodes[ev.code := cfg.action.keymap[ev.code]]
           case Up => s.releaseCodes - {ev.code}
           case Hold => s.releaseCodes
    // companion modifier: the first classified key of an activation is
    // preceded by one modifier down carrying its timestamp
    ensures cfg.action.EmitModifier? ==>
      && r.out == (if s.used then [] else [Key(ev.time, cfg.action.modifier, Down)]) + [ev]
      && r.next.used
      && r.next.releaseCodes == s.releaseCodes
  {
    match cfg.action
    case SwitchKeymap(keymap) =>
      if ev.code !in keymap then Reaction(s, [])
      else
        var translated := Key(ev.time, keymap[ev.code], ev.state);
        var s1 := match ev.state
          case Down => s.(releaseCodes := s.releaseCodes[ev.code := translated.code], used := true)
          case Up => s.(releaseCodes := s.releaseCodes - {ev.code})
          case Hold => s;
        Write(s1, translated)
    case EmitModifier(modifier) =>
      if s.used then Write(s, ev)
      else
        var r1 := Write(s.(used := true), Key(ev.time, modifier, Down));
        var r2 := Then(r1, Write(r1.next, ev));
        TrackAppend(s.pressed, r1.out, [ev]);
        r2
  }

  /** An event handled while the layer is active and the event is not the
      activation key's own. Keys already down pass through (rollover);
      the first other key is stashed; a later one first resolves the
      stashed key, then gets the hold action. Replaying the stashed key
      sets `passed` first, so the replay never replays again. */
  function HandleActive(cfg: Config, s: Engine, ev: Event): (r: Reaction)
    decreases if s.passed then 0 else 1
    ensures r.next.pressed == Track(s.pressed, r.out)
    ensures r.next.active == s.active && r.next.activatedAt == s.activatedAt
    ensures s.passed ==> r.next.passed
    ensures s.used ==> r.next.used
    ensures r.next.pending == s.pending || (s.pending.None? && r.next.pending == Some(ev))
    ensures cfg.action.EmitModifier? ==> r.next.releaseCodes == s.releaseCodes
    // which events are stashed: exactly a new key arriving with nothing stashed
    ensures ev.Key? && ev.code != cfg.activation && ev.code !in s.pressed && s.pending.None? ==>
      r.next.pending == Some(ev) && r.out == []
    // which pass through unchanged: non-key events and keys already down
    ensures (!ev.Key? || (ev.code != cfg.activation && ev.code in s.pressed)) ==>
      r.out == [ev] && r.next.pending == s.pending
  {
    if !ev.Key? then Write(s, ev)
    else if ev.code == cfg.activation then Reaction(s, [])
    else if ev.code in s.pressed then Write(s, ev)
    else if s.pending.None? then Reaction(s.(pending := Some(ev)), [])
    else if s.passed then Act(cfg, s, ev)
    else
      var r1 := HandleActive(cfg, s.(passed := true), s.pending.value);
      var r2 := Act(cfg, r1.next, ev);
      TrackAppend(s.pressed, r1.out, r2.out);
      Then(r1, r2)
  }

  /** The delayed first-key callback. It does nothing once the layer is
      inactive or the stashed key is resolved; otherwise it resolves the
      stashed key and handles it. */
  function TimerFired(cfg: Config, s: Engine): (r: Reaction)
    ensures r.next.pressed == Track(s.pressed, r.out)
    ensures !s.active || s.passed ==> r == Reaction(s, [])
    ensures s.active && s.pending.Some? ==> r.next.passed
    ensures r.next.active == s.active && r.next.pending == s.pending
  {
    if !s.active || s.passed || s.pending.None? then Reaction(s, [])
    else HandleActive(cfg, s.(passed := true), s.pending.value)
  }

  /** Activation-key up: always deactivates. A used companion modifier is
      released; a tap writes the activation key's down and then this up,
      both with the release time, followed by the unresolved first event
      when it is recent enough. A used or long hold writes nothing more. */
  function Release(cfg: Config, s: Engine, ev: Event): (r: Reaction)
    requires ev == Key(ev.time, cfg.activation, Up)
    ensures r.next == s.(active := false, pressed := r.next.pressed)
    ensures r.next.pressed == Track(s.pressed, r.out)
    ensures IsTap(s, ev.time) ==>
      r.out == [Key(ev.time, cfg.activation, Down), ev]
               + (if ForwardsPending(s, ev.time) then [s.pending.value] else [])
    ensures !IsTap(s, ev.time) ==>
      r.out == (if cfg.action.EmitModifier? && s.used then [Key(ev.time, cfg.action.modifier, Up)] else [])
  {
    var s0 := s.(active := false);
    var r0 :=
      if cfg.action.EmitModifier? && s.used then Write(s0, Key(ev.time, cfg.action.modifier, Up))
      else Reaction(s0, []);
    if !IsTap(s, ev.time) then r0
    else
      var r1 := Write(r0.next, Key(ev.time, cfg.activation, Down));
      var r2 := Write(r1.next, ev);
      var r3 := if ForwardsPending(s, ev.time) then Write(r2.next, s.pending.value) else Reaction(r2.next, []);
      TrackAppend(s.pressed, r1.out, r2.out);
      TrackAppend(s.pressed, r1.out + r2.out, r3.out);
      Then(Then(r1, r2), r3)
  }

  /** An event other than the activation key's, while inactive. With a
      keymap, ups and holds are written with their recorded output code
      (the record is consumed) and dropped when that code is not down;
      downs and non-key events pass unchanged. With a companion modifier
      everything passes unchanged. */
  function HandleInactive(cfg: Config, s: Engine, ev: Event): (r: Reaction)
    requires !ev.Key? || (!s.active && ev.code != cfg.activation)
    ensures r.next.pressed == Track(s.pressed, r.out)
    ensures r.next == s.(pressed := r.next.pressed, releaseCodes := r.next.releaseCodes)
    ensures cfg.action.EmitModifier? || !ev.Key? || ev.state == Down ==>
      r.out == [ev] && r.next.releaseCodes == s.releaseCodes
    ensures cfg.action.SwitchKeymap? && ev.Key? && ev.state != Down ==>
      && r.next.releaseCodes == s.releaseCodes - {ev.code}
      && r.out == (if ReleaseCode(s, ev.code) in s.pressed then [Key(ev.time, ReleaseCode(s, ev.code), ev.state)] else [])
  {
    if cfg.action.SwitchKeymap? && ev.Key? && ev.state != Down then
      var code := ReleaseCode(s, ev.code);
      var s1 := s.(releaseCodes := s.releaseCodes - {ev.code});
      if code !in s1.pressed then Reaction(s1, []) else Write(s1, Key(ev.time, code, ev.state))
    else Write(s, ev)
  }

  /** The layer's `send`: one event from upstream. */
  function Send(cfg: Config, s: Engine, ev: Event): (r: Reaction)
    ensures r.next.pressed == Track(s.pressed, r.out)
  {
    if ev.Key? && ev.code == cfg.activation then
      if ev.state == Down && !s.active then Reaction(Activate(s, ev.time), [])
      else if ev.state == Up then Release(cfg, s, ev)
      else Reaction(s, [])
    else if ev.Key? && s.active then HandleActive(cfg, s, ev)
    else HandleInactive(cfg, s, ev)
  }

  function Step(cfg: Config, s: Engine, i: Input): (r: Reaction)
    ensures r.next.pressed == Track(s.pressed, r.out)
  {
    match i
    case Receive(ev) => Send(cfg, s, ev)
    case TimerFires => TimerFired(cfg, s)
  }

  /** Feeds `inputs` to the engine one at a time, in order; the output is
      the concatenation of the per-input outputs. */
  function Run(cfg: Config, s: Engine, inputs: seq<Input>): (r: Reaction)
    decreases |inputs|
    ensures r.next.pressed == Track(s.pressed, r.out)
  {
    if inputs == [] then Reaction(s, [])
    else
      var r1 := Step(cfg, s, inputs[0]);
      var r2 := Run(cfg, r1.next, inputs[1..]);
      TrackAppend(s.pressed, r1.out, r2.out);
      Then(r1, r2)
  }
}

=== FILE: engine_props.dfy ===
/** Properties of the dual-role engine: what one input does in each
    state, and what whole traces of inputs do. */
module EngineProperties {
  import opened Outcomes
  import opened Events
  import opened DualRoleEngine

  /** The output a keymap gives one classified key event: the rewritten
      event when its code is mapped, nothing otherwise. */
  function Translated(keymap: map<Code, Code>, e: Event): seq<Event>
    requires e.Key?
  {
    if e.code in keymap then [Key(e.time, keymap[e.code], e.state)] else []
  }

  /** Every release-code record was made by the keymap: it maps an input
      code to exactly the code the keymap gives it. */
  predicate KeymapRecords(cfg: Config, s: Engine)
  {
    cfg.action.SwitchKeymap? ==>
      forall k | k in s.releaseCodes :: k in cfg.action.keymap && s.releaseCodes[k] == cfg.action.keymap[k]
  }

  /** An input that is not a release of the activation key: the inputs
      that can arrive while the key stays held, its own autorepeat holds
      and repeated downs included. */
  predicate NotActivationUp(cfg: Config, i: Input)
  {
    i.TimerFires? || !i.ev.Key? || i.ev.code != cfg.activation || i.ev.state != Up
  }

  /** An activation-key down. */
  predicate ActivationDown(cfg: Config, i: Input)
  {
    i.Receive? && i.ev.Key? && i.ev.code == cfg.activation && i.ev.state == Down
  }

  /** An input that is not a key event with code `c`. */
  predicate AvoidsKey(i: Input, c: Code)
  {
    i.TimerFires? || !i.ev.Key? || i.ev.code != c
  }

  // ---------------------------------------------------------------------
  // The activation key

  /** Activation-key down while idle starts an activation at the event's
      time, with `used`, the stashed event and `passed` cleared; nothing is
      written. */
  lemma ActivationDownStartsActivation(cfg: Config, s: Engine, t: int)
    requires !s.active
    ensures var r := Send(cfg, s, Key(t, cfg.activation, Down));
      && r.out == []
      && r.next == s.(active := true, used := false, activatedAt := Some(t), pending := None, passed := false)
  {
  }

  /** A repeated activation-key down while active, and an activation-key
      hold, are swallowed without any effect. */
  lemma ActivationRepeatSwallowed(cfg: Config, s: Engine, t: int, st: KeyState)
    requires st == Hold || (st == Down && s.active)
    ensures Send(cfg, s, Key(t, cfg.activation, st)) == Reaction(s, [])
  {
  }

  /** Activation-key up always deactivates. A tap writes the activation
      key's down and then the release itself, both at the release time,
      followed by the unresolved first event when it is less than the
      first-key delay older; anything else writes nothing with a keymap. */
  lemma KeymapRelease(cfg: Config, s: Engine, t: int)
    requires cfg.action.SwitchKeymap?
    ensures var r := Send(cfg, s, Key(t, cfg.activation, Up));
      && !r.next.active
      && r.next.used == s.used && r.next.releaseCodes == s.releaseCodes
      && r.out == if IsTap(s, t) then
                    [Key(t, cfg.activation, Down), Key(t, cfg.activation, Up)]
                    + (if ForwardsPending(s, t) then [s.pending.value] else [])
                  else []
  {
  }

  /** With a companion modifier, releasing the activation key writes a
      modifier up exactly when the activation was used, and the tap pair
      exactly when it is a tap; the two never happen together. */
  lemma ModifierRelease(cfg: Config, s: Engine, t: int)
    requires cfg.action.EmitModifier?
    ensures var r := Send(cfg, s, Key(t, cfg.activation, Up));
      && !r.next.active
      && (s.used ==> r.out == [Key(t, cfg.action.modifier, Up)])
      && (IsTap(s, t) ==> r.out[..2] == [Key(t, cfg.activation, Down), Key(t, cfg.activation, Up)])
      && (!s.used && !IsTap(s, t) ==> r.out == [])
  {
  }

  // ---------------------------------------------------------------------
  // Other keys while active

  /** Rollover: while active, a key event whose code is already down is
      written unchanged, whatever the hold action. */
  lemma RolloverPassesThrough(cfg: Config, s: Engine, ev: Event)
    requires s.active && ev.Key? && ev.code != cfg.activation && ev.code in s.pressed
    ensures Send(cfg, s, ev) == Reaction(s.(pressed := Press(s.pressed, ev)), [ev])
  {
  }

  /** While active, the first key event that is not already down is
      stashed and nothing is written. */
  lemma FirstKeyIsStashed(cfg: Config, s: Engine, ev: Event)
    requires s.active && s.pending.None?
    requires ev.Key? && ev.code != cfg.activation && ev.code !in s.pressed
    ensures Send(cfg, s, ev) == Reaction(s.(pending := Some(ev)), [])
  {
  }

  /** A second key that is not already down resolves the stashed first
      key before it: the first key's rewrite is written before the second
      key's, so the output follows the input order. */
  lemma KeymapSecondKeyReplaysFirst(cfg: Config, s: Engine, ev: Event)
    requires cfg.action.SwitchKeymap?
    requires s.active && s.pending.Some? && !s.passed
    requires s.pending.value.Key? && s.pending.value.code != cfg.activation && s.pending.value.code !in s.pressed
    requires ev.Key? && ev.code != cfg.activation && ev.code !in s.pressed
    ensures var r := Send(cfg, s, ev);
      && r.out == Translated(cfg.action.keymap, s.pending.value) + Translated(cfg.action.keymap, ev)
      && r.next.passed && r.next.active
  {
    ReplayThenAct(cfg, s, ev);
  }

  /** The same with a companion modifier: one modifier down with the
      first key's timestamp, then the first key, then the second key. */
  lemma ModifierSecondKeyReplaysFirst(cfg: Config, s: Engine, ev: Event)
    requires cfg.action.EmitModifier?
    requires s.active && s.pending.Some? && !s.passed && !s.used
    requires s.pending.value.Key? && s.pending.value.code != cfg.activation && s.pending.value.code !in s.pressed
    requires ev.Key? && ev.code != cfg.activation && ev.code !in s.pressed
    ensures var r := Send(cfg, s, ev);
      && r.out == [Key(s.pending.value.time, cfg.action.modifier, Down), s.pending.value, ev]
      && r.next.passed && r.next.used
  {
    ReplayThenAct(cfg, s, ev);
  }

  /** Unfolds a second key's handling into the replay of the stashed key,
      which is classified at once, followed by the hold action. */
  lemma ReplayThenAct(cfg: Config, s: Engine, ev: Event)
    requires s.active && s.pending.Some? && !s.passed
    requires s.pending.value.Key? && s.pending.value.code != cfg.activation && s.pending.value.code !in s.pressed
    requires ev.Key? && ev.code != cfg.activation && ev.code !in s.pressed
    ensures var r1 := Act(cfg, s.(passed := true), s.pending.value);
      Send(cfg, s, ev) == Then(r1, Act(cfg, r1.next, ev))
  {
    var s1 := s.(passed := true);
    assert HandleActive(cfg, s1, s.pending.value) == Act(cfg, s1, s.pending.value);
  }

  /** Once the first key is resolved, a key that is not already down gets
      the keymap: an unmapped key is dropped without any change, a mapped
      key is rewritten; its down records input -> output and marks the
      activation used, its up forgets the record. */
  lemma KeymapResolvedKey(cfg: Config, s: Engine, ev: Event)
    requires cfg.action.SwitchKeymap?
    requires s.active && s.pending.Some? && s.passed
    requires ev.Key? && ev.code != cfg.activation && ev.code !in s.pressed
    ensures var r := Send(cfg, s, ev); var km := cfg.action.keymap;
      && (ev.code !in km ==> r == Reaction(s, []))
      && (ev.code in km ==>
           && r.out == [Key(ev.time, km[ev.code], ev.state)]
           && (ev.state == Down ==> r.next.used && r.next.releaseCodes == s.releaseCodes[ev.code := km[ev.code]])
           && (ev.state == Up ==> r.next.releaseCodes == s.releaseCodes - {ev.code})
           && (ev.state == Hold ==> r.next.releaseCodes == s.releaseCodes))
  {
  }

  /** With a companion modifier, while active, one call never rewrites
      or drops a non-activation event: everything it writes is the event
      itself, the stashed first event or a modifier down, and it writes
      the event unless it has just stashed it. A stashed event can still
      be lost later, when a long release deactivates the layer before the
      stash is resolved (`Scenarios.ModifierLongReleaseLosesStash`). */
  lemma ModifierActiveNeverRewrites(cfg: Config, s: Engine, ev: Event)
    requires cfg.action.EmitModifier? && s.active
    requires !ev.Key? || ev.code != cfg.activation
    ensures var r := Send(cfg, s, ev);
      && (forall e | e in r.out :: e == ev || Some(e) == s.pending || e == Key(e.time, cfg.action.modifier, Down))
      && (ev in r.out || r.next.pending == Some(ev))
  {
    if ev.Key? && ev.code !in s.pressed && s.pending.Some? && !s.passed {
      var p := s.pending.value;
      var s1 := s.(passed := true);
      var r1 := HandleActive(cfg, s1, p);
      ModifierActiveReplay(cfg, s1, p);
      var r2 := Act(cfg, r1.next, ev);
      assert Send(cfg, s, ev).out == r1.out + r2.out;
    }
  }

  /** The replay of the stashed event writes only that event, possibly
      preceded by a modifier down. */
  lemma ModifierActiveReplay(cfg: Config, s: Engine, p: Event)
    requires cfg.action.EmitModifier? && s.passed
    ensures forall e | e in HandleActive(cfg, s, p).out :: e == p || e == Key(e.time, cfg.action.modifier, Down)
  {
  }

  // ---------------------------------------------------------------------
  // The delayed callback and the stashed event

  /** The callback does nothing once the layer is inactive or the stashed
      event is resolved. */
  lemma TimerNoOpWhenResolvedOrInactive(cfg: Config, s: Engine)
    requires !s.active || s.passed
    ensures Step(cfg, s, TimerFires) == Reaction(s, [])
  {
  }

  /** Otherwise it resolves the stashed event, so a second firing in the
      same activation does nothing. */
  lemma TimerResolvesOnce(cfg: Config, s: Engine)
    requires s.active && s.pending.Some?
    ensures var r := Step(cfg, s, TimerFires);
      r.next.passed && Step(cfg, r.next, TimerFires) == Reaction(r.next, [])
  {
  }

  /** When the callback resolves a stashed key event, that event is
      handled as if it had just arrived: passed unchanged when its code is
      already down, otherwise rewritten through the keymap or dropped. */
  lemma KeymapTimerResolves(cfg: Config, s: Engine)
    requires cfg.action.SwitchKeymap?
    requires s.active && s.pending.Some? && !s.passed
    requires s.pending.value.Key? && s.pending.value.code != cfg.activation
    ensures var r := Step(cfg, s, TimerFires); var p := s.pending.value;
      && r.next.passed
      && r.out == (if p.code in s.pressed then [p] else Translated(cfg.action.keymap, p))
  {
    var s1 := s.(passed := true);
    var p := s.pending.value;
    if p.code !in s.pressed {
      assert HandleActive(cfg, s1, p) == Act(cfg, s1, p);
    }
  }

  /** With a companion modifier, the resolved stashed key is written
      unchanged, preceded by a modifier down with its timestamp when it is
      the activation's first classified key. */
  lemma ModifierTimerResolves(cfg: Config, s: Engine)
    requires cfg.action.EmitModifier?
    requires s.active && s.pending.Some? && !s.passed
    requires s.pending.value.Key? && s.pending.value.code != cfg.activation
    ensures var r := Step(cfg, s, TimerFires); var p := s.pending.value;
      && r.next.passed
      && r.out == (if p.code in s.pressed || s.used then [p]
                   else [Key(p.time, cfg.action.modifier, Down), p])
      && (p.code !in s.pressed ==> r.next.used)
  {
    var s1 := s.(passed := true);
    var p := s.pending.value;
    if p.code !in s.pressed {
      assert HandleActive(cfg, s1, p) == Act(cfg, s1, p);
    }
  }

  /** Once resolved, the stashed event is never consulted again: swapping
      it for any other event changes nothing that any input writes. */
  lemma ResolvedPendingIsInert(cfg: Config, s: Engine, other: Event, i: Input)
    requires s.passed && s.pending.Some?
    ensures Step(cfg, s, i).out == Step(cfg, s.(pending := Some(other)), i).out
  {
  }

  /** `passed` stays set until the next activation. */
  lemma {:induction false} PassedStaysSet(cfg: Config, s: Engine, inputs: seq<Input>)
    requires s.passed
    requires forall j | 0 <= j < |inputs| :: !ActivationDown(cfg, inputs[j])
    ensures Run(cfg, s, inputs).next.passed
    decreases |inputs|
  {
    if inputs != [] {
      var r1 := Step(cfg, s, inputs[0]);
      assert r1.next.passed;
      PassedStaysSet(cfg, r1.next, inputs[1..]);
    }
  }

  // ---------------------------------------------------------------------
  // The keymap's release-code records

  lemma ActKeepsRecords(cfg: Config, s: Engine, ev: Event)
    requires ev.Key? && KeymapRecords(cfg, s)
    ensures KeymapRecords(cfg, Act(cfg, s, ev).next)
  {
  }

  lemma {:induction false} HandleActiveKeepsRecords(cfg: Config, s: Engine, ev: Event)
    requires KeymapRecords(cfg, s)
    ensures KeymapRecords(cfg, HandleActive(cfg, s, ev).next)
    decreases if s.passed then 0 else 1
  {
    if ev.Key? && ev.code != cfg.activation && ev.code !in s.pressed && s.pending.Some? {
      if s.passed {
        ActKeepsRecords(cfg, s, ev);
      } else {
        var s1 := s.(passed := true);
        HandleActiveKeepsRecords(cfg, s1, s.pending.value);
        ActKeepsRecords(cfg, HandleActive(cfg, s1, s.pending.value).next, ev);
      }
    }
  }

  /** Every input keeps the release-code records faithful to the keymap. */
  lemma StepKeepsRecords(cfg: Config, s: Engine, i: Input)
    requires KeymapRecords(cfg, s)
    ensures KeymapRecords(cfg, Step(cfg, s, i).next)
  {
    match i
    case TimerFires =>
      if s.active && !s.passed && s.pending.Some? {
        HandleActiveKeepsRecords(cfg, s.(passed := true), s.pending.value);
      }
    case Receive(ev) =>
      if ev.Key? && ev.code != cfg.activation && s.active {
        HandleActiveKeepsRecords(cfg, s, ev);
      }
  }

  lemma {:induction false} RunKeepsRecords(cfg: Config, s: Engine, inputs: seq<Input>)
    requires KeymapRecords(cfg, s)
    ensures KeymapRecords(cfg, Run(cfg, s, inputs).next)
    decreases |inputs|
  {
    if inputs != [] {
      StepKeepsRecords(cfg, s, inputs[0]);
      RunKeepsRecords(cfg, Step(cfg, s, inputs[0]).next, inputs[1..]);
    }
  }

  /** Release-code round trip: an up of a key whose down was rewritten is
      written with the recorded output code, and the record is removed,
      whether the layer is still active (with the first key resolved) or
      already inactive. */
  lemma ReleaseUsesRecordedCode(cfg: Config, s: Engine, k: Code, t: int)
    requires cfg.action.SwitchKeymap? && KeymapRecords(cfg, s)
    requires k in s.releaseCodes && k != cfg.activation && k !in s.pressed
    requires s.releaseCodes[k] in s.pressed
    requires s.active ==> s.pending.Some? && s.passed
    ensures var r := Send(cfg, s, Key(t, k, Up));
      && r.out == [Key(t, s.releaseCodes[k], Up)]
      && r.next.releaseCodes == s.releaseCodes - {k}
  {
  }

  /** While inactive, a keymap layer writes key downs and non-key events
      unchanged. */
  lemma KeymapInactivePassesDowns(cfg: Config, s: Engine, ev: Event)
    requires cfg.action.SwitchKeymap? && !s.active
    requires !ev.Key? || (ev.state == Down && ev.code != cfg.activation)
    ensures Send(cfg, s, ev) == Reaction(s.(pressed := Press(s.pressed, ev)), [ev])
  {
  }

  /** While inactive, a keymap layer writes an up or hold with its
      recorded code, consuming the record, and drops it when that code is
      not down. */
  lemma KeymapInactiveRelease(cfg: Config, s: Engine, ev: Event)
    requires cfg.action.SwitchKeymap? && !s.active
    requires ev.Key? && ev.state != Down && ev.code != cfg.activation
    ensures var r := Send(cfg, s, ev); var code := ReleaseCode(s, ev.code);
      && r.next.releaseCodes == s.releaseCodes - {ev.code}
      && r.out == (if code in s.pressed then [Key(ev.time, code, ev.state)] else [])
      && r.next.pressed == Press(s.pressed, Key(ev.time, code, ev.state))
  {
  }

  /** An input that is a key's autorepeat. */
  predicate IsRepeat(i: Input)
  {
    i.Receive? && i.ev.Key? && i.ev.state == Hold
  }

  /** While the layer is inactive, autorepeat writes nothing but key
      holds, whatever the hold action, so it never changes which keys are
      down and never activates the layer. */
  lemma {:induction false} InactiveRepeatsKeepPressed(cfg: Config, s: Engine, ins: seq<Input>)
    requires !s.active
    requires forall j | 0 <= j < |ins| :: IsRepeat(ins[j])
    ensures var r := Run(cfg, s, ins);
      && !r.next.active
      && (forall k | 0 <= k < |r.out| :: r.out[k].Key? && r.out[k].state == Hold)
      && r.next.pressed == s.pressed
    decreases |ins|
  {
    if ins != [] {
      var r1 := Step(cfg, s, ins[0]);
      InactiveRepeatStep(cfg, s, ins[0]);
      InactiveRepeatsKeepPressed(cfg, r1.next, ins[1..]);
      var r2 := Run(cfg, r1.next, ins[1..]);
      assert Run(cfg, s, ins).out == r1.out + r2.out;
      TrackIgnoresHolds(s.pressed, Run(cfg, s, ins).out);
    }
  }

  /** One autorepeat while inactive writes at most its own hold. */
  lemma InactiveRepeatStep(cfg: Config, s: Engine, i: Input)
    requires !s.active && IsRepeat(i)
    ensures var r := Step(cfg, s, i);
      && !r.next.active
      && (forall k | 0 <= k < |r.out| :: r.out[k].Key? && r.out[k].state == Hold)
  {
  }

  /** With a keymap, `used` is only ever set by writing a rewritten key
      down. */
  lemma {:induction false} KeymapUsedOnlyByDown(cfg: Config, s: Engine, ev: Event)
    requires cfg.action.SwitchKeymap?
    ensures var r := HandleActive(cfg, s, ev);
      !s.used && r.next.used ==>
        exists j | 0 <= j < |r.out| :: r.out[j].Key? && r.out[j].state == Down && r.out[j].code in cfg.action.keymap.Values
    decreases if s.passed then 0 else 1
  {
    var r := HandleActive(cfg, s, ev);
    if !s.used && r.next.used {
      var km := cfg.action.keymap;
      if s.passed {
        assert r.out[0].code == km[ev.code];
      } else {
        var s1 := s.(passed := true);
        var r1 := HandleActive(cfg, s1, s.pending.value);
        KeymapUsedOnlyByDown(cfg, s1, s.pending.value);
        var r2 := Act(cfg, r1.next, ev);
        assert r.out == r1.out + r2.out;
        if r1.next.used {
          var j :| 0 <= j < |r1.out| && r1.out[j].Key? && r1.out[j].state == Down && r1.out[j].code in km.Values;
          assert r.out[j] == r1.out[j];
        } else {
          assert r.out[|r1.out|] == r2.out[0];
          assert r2.out[0].code == km[ev.code];
        }
      }
    }
  }

  // ---------------------------------------------------------------------
  // The companion modifier's balance

  /** While active, the stashed event (if any) is not a key event with the
      modifier's code. */
  predicate PendingAvoids(s: Engine, c: Code)
  {
    s.pending.None? || !s.pending.value.Key? || s.pending.value.code != c
  }

  /** Modifier downs written while active, counted against `used`. */
  lemma {:induction false} ModifierHandleCounts(cfg: Config, s: Engine, ev: Event)
    requires cfg.action.EmitModifier? && PendingAvoids(s, cfg.action.modifier)
    requires !ev.Key? || ev.code != cfg.action.modifier
    ensures var r := HandleActive(cfg, s, ev); var m := cfg.action.modifier;
      && PendingAvoids(r.next, m)
      && CountKey(r.out, m, Down) + (if s.used then 1 else 0) == (if r.next.used then 1 else 0)
      && CountKey(r.out, m, Up) == 0
    decreases if s.passed then 0 else 1
  {
    var m := cfg.action.modifier;
    var r := HandleActive(cfg, s, ev);
    if ev.Key? && ev.code != cfg.activation && ev.code !in s.pressed && s.pending.Some? {
      if s.passed {
        ActCounts(cfg, s, ev);
      } else {
        var s1 := s.(passed := true);
        var r1 := HandleActive(cfg, s1, s.pending.value);
        ModifierHandleCounts(cfg, s1, s.pending.value);
        var r2 := Act(cfg, r1.next, ev);
        ActCounts(cfg, r1.next, ev);
        CountKeyAppend(r1.out, r2.out, m, Down);
        CountKeyAppend(r1.out, r2.out, m, Up);
      }
    }
  }

  lemma ActCounts(cfg: Config, s: Engine, ev: Event)
    requires cfg.action.EmitModifier? && ev.Key? && ev.code != cfg.action.modifier
    ensures var r := Act(cfg, s, ev); var m := cfg.action.modifier;
      && CountKey(r.out, m, Down) + (if s.used then 1 else 0) == 1
      && CountKey(r.out, m, Up) == 0
  {
    var m := cfg.action.modifier;
    var r := Act(cfg, s, ev);
    if s.used {
      assert r.out == [ev];
    } else {
      assert r.out == [Key(ev.time, m, Down), ev];
      assert r.out[1..] == [ev];
      assert r.out[1..][1..] == [];
      assert CountKey(r.out[1..], m, Down) == 0;
      assert CountKey(r.out[1..], m, Up) == 0;
    }
  }

  lemma {:induction false} ModifierActiveCounts(cfg: Config, s: Engine, mid: seq<Input>)
    requires cfg.action.EmitModifier? && s.active && PendingAvoids(s, cfg.action.modifier)
    requires forall j | 0 <= j < |mid| :: NotActivationUp(cfg, mid[j]) && AvoidsKey(mid[j], cfg.action.modifier)
    ensures var r := Run(cfg, s, mid); var m := cfg.action.modifier;
      && r.next.active && PendingAvoids(r.next, m)
      && CountKey(r.out, m, Down) + (if s.used then 1 else 0) == (if r.next.used then 1 else 0)
      && CountKey(r.out, m, Up) == 0
    decreases |mid|
  {
    if mid != [] {
      var m := cfg.action.modifier;
      var r1 := Step(cfg, s, mid[0]);
      match mid[0] {
        case TimerFires =>
          if !s.passed && s.pending.Some? {
            ModifierHandleCounts(cfg, s.(passed := true), s.pending.value);
          }
        case Receive(ev) =>
          if ev.Key? && ev.code == cfg.activation {
            assert r1 == Reaction(s, []);
          } else {
            ModifierHandleCounts(cfg, s, ev);
          }
      }
      var r2 := Run(cfg, r1.next, mid[1..]);
      ModifierActiveCounts(cfg, r1.next, mid[1..]);
      CountKeyAppend(r1.out, r2.out, m, Down);
      CountKeyAppend(r1.out, r2.out, m, Up);
    }
  }

  /** Per activation, the companion modifier is balanced: over an
      activation-key down, any inputs other than its release that do not
      touch the modifier (the activation key's own autorepeat included),
      and the activation-key up, the layer writes as many modifier ups as
      modifier downs, and at most one of each. */
  lemma {:induction false} ModifierActivationBalanced(cfg: Config, s: Engine, t0: int, mid: seq<Input>, t1: int)
    requires cfg.action.EmitModifier? && cfg.activation != cfg.action.modifier
    requires !s.active
    requires forall j | 0 <= j < |mid| :: NotActivationUp(cfg, mid[j]) && AvoidsKey(mid[j], cfg.action.modifier)
    ensures var r := Run(cfg, s, [Receive(Key(t0, cfg.activation, Down))] + mid + [Receive(Key(t1, cfg.activation, Up))]);
      && CountKey(r.out, cfg.action.modifier, Down) == CountKey(r.out, cfg.action.modifier, Up)
      && CountKey(r.out, cfg.action.modifier, Up) <= 1
  {
    var m := cfg.action.modifier;
    var down := Receive(Key(t0, cfg.activation, Down));
    var up := Receive(Key(t1, cfg.activation, Up));
    var s0 := Activate(s, t0);
    ActivationCycleSplits(cfg, s, down, mid, up);
    ModifierActiveCounts(cfg, s0, mid);
    var rm := Run(cfg, s0, mid);
    var ru := Step(cfg, rm.next, up);
    CountKeyAppend(rm.out, ru.out, m, Down);
    CountKeyAppend(rm.out, ru.out, m, Up);
    ReleaseCounts(cfg, rm.next, t1);
  }

  /** An activation cycle's output is the middle inputs' output after
      activation followed by the release's output. */
  lemma ActivationCycleSplits(cfg: Config, s: Engine, down: Input, mid: seq<Input>, up: Input)
    requires !s.active && down.Receive? && down.ev == Key(down.ev.time, cfg.activation, Down)
    ensures var rm := Run(cfg, Activate(s, down.ev.time), mid);
      Run(cfg, s, [down] + mid + [up]).out == rm.out + Step(cfg, rm.next, up).out
  {
    var s0 := Activate(s, down.ev.time);
    RunOne(cfg, s, down);
    assert Run(cfg, s, [down]) == Reaction(s0, []);
    var rm := Run(cfg, s0, mid);
    RunOne(cfg, rm.next, up);
    RunSplit(cfg, s0, mid, [up]);
    RunSplit(cfg, s, [down], mid + [up]);
    assert [down] + mid + [up] == [down] + (mid + [up]);
  }

  /** A one-input run is a single step. */
  lemma RunOne(cfg: Config, s: Engine, i: Input)
    ensures Run(cfg, s, [i]) == Step(cfg, s, i)
  {
    var r1 := Step(cfg, s, i);
    assert [i][1..] == [];
    assert r1.out + [] == r1.out;
  }

  lemma ReleaseCounts(cfg: Config, s: Engine, t: int)
    requires cfg.action.EmitModifier? && cfg.activation != cfg.action.modifier
    requires PendingAvoids(s, cfg.action.modifier)
    ensures var r := Send(cfg, s, Key(t, cfg.activation, Up)); var m := cfg.action.modifier;
      && CountKey(r.out, m, Down) == 0
      && CountKey(r.out, m, Up) == (if s.used then 1 else 0)
  {
    var r := Send(cfg, s, Key(t, cfg.activation, Up));
    if IsTap(s, t) {
      var a := [Key(t, cfg.activation, Down), Key(t, cfg.activation, Up)];
      var b := if ForwardsPending(s, t) then [s.pending.value] else [];
      assert r.out == a + b;
      assert a[1..][1..] == [];
      CountKeyAppend(a, b, cfg.action.modifier, Down);
      CountKeyAppend(a, b, cfg.action.modifier, Up);
    }
  }

  /** Running two input sequences one after the other is running their
      concatenation. */
  lemma {:induction false} RunSplit(cfg: Config, s: Engine, a: seq<Input>, b: seq<Input>)
    ensures var ra := Run(cfg, s, a); var rb := Run(cfg, ra.next, b);
      Run(cfg, s, a + b) == Reaction(rb.next, ra.out + rb.out)
    decreases |a|
  {
    if a == [] {
      assert a + b == b;
    } else {
      assert (a + b)[0] == a[0];
      assert (a + b)[1..] == a[1..] + b;
      var r1 := Step(cfg, s, a[0]);
      RunSplit(cfg, r1.next, a[1..], b);
      var ra := Run(cfg, r1.next, a[1..]);
      var rb := Run(cfg, ra.next, b);
      assert Run(cfg, s, a).next == ra.next && Run(cfg, s, a).out == r1.out + ra.out;
      assert Run(cfg, s, a + b).next == rb.next && Run(cfg, s, a + b).out == r1.out + (ra.out + rb.out);
      AppendAssociates(r1.out, ra.out, rb.out);
    }
  }

  /** Concatenation regroups; kept separate so the solver sees it as one fact. */
  lemma AppendAssociates<T>(x: seq<T>, y: seq<T>, z: seq<T>)
    ensures x + (y + z) == (x + y) + z
  {
  }
}

=== FILE: events.dfy ===
/** Input events, the key codes the model names, and the pressed-key
    bookkeeping every dual-role layer performs on what it writes. */
module Events {

  /** A key identifier, as the kernel's input layer numbers it. */
  type Code = int

  /** The three values an EV_KEY event carries (0, 1 and 2 in evdev). */
  datatype KeyState = Up | Down | Hold

  /** One input event. Timestamps are integer microseconds
      (`sec * 1_000_000 + usec`). Every event type other than EV_KEY is
      carried opaquely as `Other`: no layer looks inside it. `Other`
      never carries the EV_KEY type; a key event is always a `Key`, so
      every event has exactly one representation. */
  datatype Event =
    | Key(time: int, code: Code, state: KeyState)
    | Other(time: int, etype: int, code: int, value: int)

  /** Effect of writing one event on the set of codes considered down
      downstream: a key down adds its code, a key up removes it when
      present, a key hold and a non-key event leave the set alone. */
  function Press(pressed: set<Code>, ev: Event): (r: set<Code>)
    ensures ev.Key? && ev.state == Down ==> r == pressed + {ev.code}
    ensures ev.Key? && ev.state == Up ==> r == pressed - {ev.code}
    ensures !ev.Key? || ev.state == Hold ==> r == pressed
  {
    if !ev.Key? then pressed
    else match ev.state
      case Down => pressed + {ev.code}
      case Up => pressed - {ev.code}
      case Hold => pressed
  }

  /** The pressed-key set after writing `out`, in order, starting from
      `pressed`. This is the reference the engines' own bookkeeping is
      proved against. */
  function Track(pressed: set<Code>, out: seq<Event>): set<Code>
    decreases |out|
  {
    if out == [] then pressed else Track(Press(pressed, out[0]), out[1..])
  }

  lemma {:induction false} TrackAppend(pressed: set<Code>, a: seq<Event>, b: seq<Event>)
    ensures Track(pressed, a + b) == Track(Track(pressed, a), b)
    decreases |a|
  {
    if a == [] {
      assert a + b == b;
    } else {
      assert (a + b)[0] == a[0];
      assert (a + b)[1..] == a[1..] + b;
      TrackAppend(Press(pressed, a[0]), a[1..], b);
    }
  }

  /** Writing only holds and non-key events never changes what is down. */
  lemma {:induction false} TrackIgnoresHolds(pressed: set<Code>, out: seq<Event>)
    requires forall i :: 0 <= i < |out| ==> !out[i].Key? || out[i].state == Hold
    ensures Track(pressed, out) == pressed
    decreases |out|
  {
    if out != [] {
      TrackIgnoresHolds(Press(pressed, out[0]), out[1..]);
    }
  }

  /** Number of key events in `out` with the given code and value. */
  function CountKey(out: seq<Event>, code: Code, state: KeyState): nat
    decreases |out|
  {
    if out == [] then 0
    else (if out[0] == Key(out[0].time, code, state) then 1 else 0) + CountKey(out[1..], code, state)
  }

  lemma {:induction false} CountKeyAppend(a: seq<Event>, b: seq<Event>, code: Code, state: KeyState)
    ensures CountKey(a + b, code, state) == CountKey(a, code, state) + CountKey(b, code, state)
    decreases |a|
  {
    if a == [] {
      assert a + b == b;
    } else {
      assert (a + b)[0] == a[0];
      assert (a + b)[1..] == a[1..] + b;
      CountKeyAppend(a[1..], b, code, state);
    }
  }

  /** Linux input-event-codes.h values for the keys the layers name. */
  const KEY_1: Code := 2
  const KEY_2: Code := 3
  const KEY_3: Code := 4
  const KEY_4: Code := 5
  const KEY_5: Code := 6
  const KEY_6: Code := 7
  const KEY_7: Code := 8
  const KEY_8: Code := 9
  const KEY_9: Code := 10
  const KEY_0: Code := 11
  const KEY_MINUS: Code := 12
  const KEY_EQUAL: Code := 13
  const KEY_BACKSPACE: Code := 14
  const KEY_U: Code := 22
  const KEY_I: Code := 23
  const KEY_O: Code := 24
  const KEY_ENTER: Code := 28
  const KEY_LEFTCTRL: Code := 29
  const KEY_A: Code := 30
  const KEY_H: Code := 35
  const KEY_J: Code := 36
  const KEY_K: Code := 37
  const KEY_L: Code := 38
  const KEY_APOSTROPHE: Code := 40
  const KEY_LEFTSHIFT: Code := 42
  const KEY_Z: Code := 44
  const KEY_X: Code := 45
  const KEY_C: Code := 46
  const KEY_V: Code := 47
  const KEY_N: Code := 49
  const KEY_M: Code := 50
  const KEY_SLASH: Code := 53
  const KEY_RIGHTSHIFT: Code := 54
  const KEY_LEFTALT: Code := 56
  const KEY_SPACE: Code := 57
  const KEY_F1: Code := 59
  const KEY_F2: Code := 60
  const KEY_F3: Code := 61
  const KEY_F4: Code := 62
  const KEY_F5: Code := 63
  const KEY_F6: Code := 64
  const KEY_F7: Code := 65
  const KEY_F8: Code := 66
  const KEY_F9: Code := 67
  const KEY_F10: Code := 68
  const KEY_F11: Code := 87
  const KEY_F12: Code := 88
  const KEY_RIGHTCTRL: Code := 97
  const KEY_RIGHTALT: Code := 100
  const KEY_HOME: Code := 102
  const KEY_UP: Code := 103
  const KEY_PAGEUP: Code := 104
  const KEY_LEFT: Code := 105
  const KEY_RIGHT: Code := 106
  const KEY_END: Code := 107
  const KEY_DOWN: Code := 108
  const KEY_PAGEDOWN: Code := 109
  const KEY_DELETE: Code := 111
  const KEY_LEFTMETA: Code := 125
  const KEY_RIGHTMETA: Code := 126
}

=== FILE: keycode_map.dfy ===
/** `convert_keycode_map`: turns a configured key map whose keys and
    values are key numbers or symbolic key names into a map between key
    numbers. Names are resolved through evdev's name table, which the
    model takes as a parameter (`names`): a partial map from name to code. */
module KeycodeMap {
  import opened Outcomes
  import opened Events

  /** A configured key identifier: a key number or a symbolic name. */
  datatype Ident = Num(n: int) | Name(name: string)

  /** The code an identifier stands for; None for an unknown name. */
  function Resolve(names: map<string, Code>, id: Ident): (r: Option<Code>)
    ensures id.Num? ==> r == Some(id.n)
    ensures id.Name? ==> (r.Some? <==> id.name in names)
    ensures id.Name? && id.name in names ==> r == Some(names[id.name])
  {
    match id
    case Num(n) => Some(n)
    case Name(name) => if name in names then Some(names[name]) else None
  }

  predicate Resolves(names: map<string, Code>, id: Ident)
  {
    id.Num? || id.name in names
  }

  /** The code of an identifier that resolves. */
  function CodeOf(names: map<string, Code>, id: Ident): Code
    requires Resolves(names, id)
  {
    Resolve(names, id).value
  }

  /** Every key and value among the first `n` entries resolves. */
  predicate PrefixResolves(names: map<string, Code>, codes: seq<(Ident, Ident)>, n: int)
    requires 0 <= n <= |codes|
  {
    forall j | 0 <= j < n :: Resolves(names, codes[j].0) && Resolves(names, codes[j].1)
  }

  /** Entry `j` is the last among the first `n` whose key resolves to the
      same code, so its value is the one kept. */
  predicate LastFor(names: map<string, Code>, codes: seq<(Ident, Ident)>, n: int, j: int)
    requires 0 <= j < n <= |codes|
    requires PrefixResolves(names, codes, n)
  {
    forall l | j < l < n :: CodeOf(names, codes[l].0) != CodeOf(names, codes[j].0)
  }

  /** The unknown name that makes the conversion fail at entry `i`: the
      key's, or else the value's. */
  predicate FailsAt(names: map<string, Code>, codes: seq<(Ident, Ident)>, i: int, error: string)
    requires 0 <= i < |codes|
  {
    && PrefixResolves(names, codes, i)
    && (if !Resolves(names, codes[i].0) then error == codes[i].0.name
        else !Resolves(names, codes[i].1) && error == codes[i].1.name)
  }

  /** Converts the entries in iteration order. Number keys and values
      pass unchanged, names are looked up, and the first unknown name (key
      before value) fails the whole conversion. When two keys resolve to
      the same code, the later entry's value is kept. */
  method ConvertKeycodeMap(names: map<string, Code>, codes: seq<(Ident, Ident)>)
    returns (r: Result<map<Code, Code>, string>)
    ensures r.Ok? <==> PrefixResolves(names, codes, |codes|)
    ensures r.Err? ==> exists i | 0 <= i < |codes| :: FailsAt(names, codes, i, r.error)
    ensures r.Ok? ==> r.value.Keys == set j | 0 <= j < |codes| :: CodeOf(names, codes[j].0)
    ensures r.Ok? ==> forall j | 0 <= j < |codes| && LastFor(names, codes, |codes|, j) ::
      r.value[CodeOf(names, codes[j].0)] == CodeOf(names, codes[j].1)
  {
    var res: map<Code, Code> := map[];
    var i := 0;
    while i < |codes|
      invariant 0 <= i <= |codes|
      invariant PrefixResolves(names, codes, i)
      invariant res.Keys == set j | 0 <= j < i :: CodeOf(names, codes[j].0)
      invariant forall j | 0 <= j < i && LastFor(names, codes, i, j) ::
        res[CodeOf(names, codes[j].0)] == CodeOf(names, codes[j].1)
    {
      var (k, v) := codes[i];
      var kr := Resolve(names, k);
      if kr.None? {
        assert FailsAt(names, codes, i, k.name);
        return Err(k.name);
      }
      var vr := Resolve(names, v);
      if vr.None? {
        assert FailsAt(names, codes, i, v.name);
        return Err(v.name);
      }
      res := res[kr.value := vr.value];
      forall j | 0 <= j < i + 1 && LastFor(names, codes, i + 1, j)
        ensures res[CodeOf(names, codes[j].0)] == CodeOf(names, codes[j].1)
      {
        if j < i {
          assert LastFor(names, codes, i, j);
        }
      }
      i := i + 1;
    }
    r := Ok(res);
  }
}

=== FILE: outcomes.dfy ===
/** Small failure-compatible wrappers used across the model. */
module Outcomes {

  datatype Option<+T> = None | Some(value: T)

  /** The outcome of an operation that returns a value or raises an error. */
  datatype Result<+T, +E> = Ok(value: T) | Err(error: E)
}

=== FILE: remap.dfy ===
/** `RemapLayer`: a stateless layer that substitutes key codes through a
    configured map, once per event. */
module Remap {
  import opened Outcomes
  import opened Events
  import opened KeycodeMap

  datatype RemapLayer = RemapLayer(codes: map<Code, Code>)

  /** `configure`: a missing or empty configuration gives the empty map;
      otherwise the configured map is converted, failing on an unknown
      key name. */
  method Configure(names: map<string, Code>, codes: Option<seq<(Ident, Ident)>>)
    returns (r: Result<RemapLayer, string>)
    ensures codes.None? || codes == Some([]) ==> r == Ok(RemapLayer(map[]))
    ensures codes.Some? ==> (r.Ok? <==> PrefixResolves(names, codes.value, |codes.value|))
    ensures r.Ok? && codes.Some? ==>
      r.value.codes.Keys == set j | 0 <= j < |codes.value| :: CodeOf(names, codes.value[j].0)
    ensures r.Ok? && codes.Some? ==>
      forall j | 0 <= j < |codes.value| && LastFor(names, codes.value, |codes.value|, j) ::
        r.value.codes[CodeOf(names, codes.value[j].0)] == CodeOf(names, codes.value[j].1)
  {
    var converted := ConvertKeycodeMap(names, if codes.Some? then codes.value else []);
    match converted
    case Ok(m) => r := Ok(RemapLayer(m));
    case Err(e) => r := Err(e);
  }

  /** The code a key event leaves the layer with. */
  function Apply(m: map<Code, Code>, c: Code): Code
  {
    if c in m then m[c] else c
  }

  /** `send`: a key event whose code is mapped has that code replaced;
      its timestamp and value, and every other event, pass unchanged. */
  function Send(layer: RemapLayer, ev: Event): (r: Event)
    ensures r.time == ev.time
    ensures !ev.Key? ==> r == ev
    ensures ev.Key? ==> r.Key? && r.state == ev.state
    ensures ev.Key? && ev.code !in layer.codes ==> r == ev
    ensures ev.Key? && ev.code in layer.codes ==> r.code == layer.codes[ev.code]
  {
    if ev.Key? && ev.code in layer.codes then Key(ev.time, layer.codes[ev.code], ev.state) else ev
  }

  /** The layer applied to a stream: one output event per input event,
      each depending only on that event and the map. */
  function SendAll(layer: RemapLayer, evs: seq<Event>): (r: seq<Event>)
    ensures |r| == |evs|
    ensures forall j | 0 <= j < |evs| :: r[j] == Send(layer, evs[j])
  {
    seq(|evs|, j requires 0 <= j < |evs| => Send(layer, evs[j]))
  }

  /** With no configuration the layer is the identity. */
  lemma UnconfiguredIsIdentity(ev: Event)
    ensures Send(RemapLayer(map[]), ev) == ev
  {
  }

  /** The substitution is applied once, never chained: with A -> B and
      B -> C, an A is written as B, not C. */
  lemma SingleSubstitution(t: int, a: Code, b: Code, c: Code, st: KeyState)
    requires a != b && b != c
    ensures Send(RemapLayer(map[a := b, b := c]), Key(t, a, st)) == Key(t, b, st)
  {
  }

  /** Map composition: first `m`, then `n`. */
  function Compose(m: map<Code, Code>, n: map<Code, Code>): (r: map<Code, Code>)
    ensures r.Keys == m.Keys + n.Keys
  {
    map k | k in m.Keys + n.Keys :: Apply(n, Apply(m, k))
  }

  /** Passing an event through two remap layers is one pass through the
      composed map, so each pass is a single, deterministic substitution. */
  lemma TwoLayersCompose(first: RemapLayer, second: RemapLayer, ev: Event)
    ensures Send(second, Send(first, ev)) == Send(RemapLayer(Compose(first.codes, second.codes)), ev)
  {
  }

  /** The same over a whole stream: two remap layers in a row write what
      one layer with the composed map writes. */
  lemma TwoLayersComposeAll(first: RemapLayer, second: RemapLayer, evs: seq<Event>)
    ensures SendAll(second, SendAll(first, evs)) == SendAll(RemapLayer(Compose(first.codes, second.codes)), evs)
  {
    var one := RemapLayer(Compose(first.codes, second.codes));
    forall j | 0 <= j < |evs|
      ensures SendAll(second, SendAll(first, evs))[j] == SendAll(one, evs)[j]
    {
      TwoLayersCompose(first, second, evs[j]);
    }
  }
}

=== FILE: scenarios.dfy ===
/** Concrete traces through the engine, timestamps in microseconds. */
module Scenarios {
  import opened Outcomes
  import opened Events
  import opened DualRoleEngine
  import opened DualRoleFn
  import DualRoleMod
  import EngineProperties

  /** Running an input and then the rest. */
  lemma RunCons(cfg: Config, s: Engine, i: Input, rest: seq<Input>)
    ensures var r1 := Step(cfg, s, i);
      Run(cfg, s, [i] + rest) == Then(r1, Run(cfg, r1.next, rest))
  {
    assert ([i] + rest)[0] == i;
    assert ([i] + rest)[1..] == rest;
  }

  function Ev(t: int, code: Code, st: KeyState): Input
  {
    Receive(Key(t, code, st))
  }

  /** SPACE down at 0, I down at 80 ms, I up at 150 ms, SPACE up at
      200 ms: I is written as UP both ways and the SPACE release writes
      nothing, because the activation was used. I's up resolves the
      stashed down before it. */
  lemma HoldTrace(m: map<Code, Code>)
    requires KEY_I in m && m[KEY_I] == KEY_UP
    ensures Run(Config(KEY_SPACE, SwitchKeymap(m)), Fresh(), [Ev(0, KEY_SPACE, Down), Ev(80_000, KEY_I, Down),
                                      Ev(150_000, KEY_I, Up), Ev(200_000, KEY_SPACE, Up)]).out
      == [Key(80_000, KEY_UP, Down), Key(150_000, KEY_UP, Up)]
  {
    var cfg := Config(KEY_SPACE, SwitchKeymap(m));
    var s1 := Activate(Fresh(), 0);
    var s2 := s1.(pending := Some(Key(80_000, KEY_I, Down)));
    assert Step(cfg, s1, Ev(80_000, KEY_I, Down)) == Reaction(s2, []);
    var r3 := Step(cfg, s2, Ev(150_000, KEY_I, Up));
    EngineProperties.KeymapSecondKeyReplaysFirst(cfg, s2, Key(150_000, KEY_I, Up));
    assert r3.out == [Key(80_000, KEY_UP, Down), Key(150_000, KEY_UP, Up)];
    assert r3.next.used;
    var r4 := Step(cfg, r3.next, Ev(200_000, KEY_SPACE, Up));
    assert r4.out == [];
    RunCons(cfg, r3.next, Ev(200_000, KEY_SPACE, Up), []);
    RunCons(cfg, s2, Ev(150_000, KEY_I, Up), [Ev(200_000, KEY_SPACE, Up)]);
    RunCons(cfg, s1, Ev(80_000, KEY_I, Down), [Ev(150_000, KEY_I, Up), Ev(200_000, KEY_SPACE, Up)]);
    RunCons(cfg, Fresh(), Ev(0, KEY_SPACE, Down), [Ev(80_000, KEY_I, Down), Ev(150_000, KEY_I, Up), Ev(200_000, KEY_SPACE, Up)]);
  }

  /** The same trace with the first-key callback firing at 130 ms:
      the callback writes UP down, and the output is unchanged. */
  lemma HoldWithTimerTrace(m: map<Code, Code>)
    requires KEY_I in m && m[KEY_I] == KEY_UP
    ensures Run(Config(KEY_SPACE, SwitchKeymap(m)), Fresh(), [Ev(0, KEY_SPACE, Down), Ev(80_000, KEY_I, Down), TimerFires,
                                      Ev(150_000, KEY_I, Up), Ev(200_000, KEY_SPACE, Up)]).out
      == [Key(80_000, KEY_UP, Down), Key(150_000, KEY_UP, Up)]
  {
    var cfg := Config(KEY_SPACE, SwitchKeymap(m));
    var s1 := Activate(Fresh(), 0);
    var s2 := s1.(pending := Some(Key(80_000, KEY_I, Down)));
    assert Step(cfg, s1, Ev(80_000, KEY_I, Down)) == Reaction(s2, []);
    var r3 := Step(cfg, s2, TimerFires);
    assert HandleActive(cfg, s2.(passed := true), Key(80_000, KEY_I, Down))
      == Act(cfg, s2.(passed := true), Key(80_000, KEY_I, Down));
    assert r3.out == [Key(80_000, KEY_UP, Down)];
    assert r3.next.used && r3.next.passed && r3.next.active && r3.next.pending.Some?;
    assert KEY_I !in r3.next.pressed;
    var r4 := Step(cfg, r3.next, Ev(150_000, KEY_I, Up));
    EngineProperties.KeymapResolvedKey(cfg, r3.next, Key(150_000, KEY_I, Up));
    assert r4.out == [Key(150_000, KEY_UP, Up)];
    var r5 := Step(cfg, r4.next, Ev(200_000, KEY_SPACE, Up));
    assert r5.out == [];
    RunCons(cfg, r4.next, Ev(200_000, KEY_SPACE, Up), []);
    RunCons(cfg, r3.next, Ev(150_000, KEY_I, Up), [Ev(200_000, KEY_SPACE, Up)]);
    RunCons(cfg, s2, TimerFires, [Ev(150_000, KEY_I, Up), Ev(200_000, KEY_SPACE, Up)]);
    RunCons(cfg, s1, Ev(80_000, KEY_I, Down), [TimerFires, Ev(150_000, KEY_I, Up), Ev(200_000, KEY_SPACE, Up)]);
    RunCons(cfg, Fresh(), Ev(0, KEY_SPACE, Down),
            [Ev(80_000, KEY_I, Down), TimerFires, Ev(150_000, KEY_I, Up), Ev(200_000, KEY_SPACE, Up)]);
  }

  /** SPACE down at 0 and up at 100 ms with nothing between: a tap,
      written as SPACE down and up at 100 ms. */
  lemma TapWritesSpace()
    ensures Run(FnConfig(), Fresh(), [Ev(0, KEY_SPACE, Down), Ev(100_000, KEY_SPACE, Up)]).out
      == [Key(100_000, KEY_SPACE, Down), Key(100_000, KEY_SPACE, Up)]
  {
    var cfg := FnConfig();
    var s1 := Activate(Fresh(), 0);
    RunCons(cfg, s1, Ev(100_000, KEY_SPACE, Up), []);
    RunCons(cfg, Fresh(), Ev(0, KEY_SPACE, Down), [Ev(100_000, KEY_SPACE, Up)]);
  }

  /** Fast rollover: X down at 10 ms before SPACE goes down at 20 ms; X's
      up at 30 ms passes unchanged although SPACE is held, and the SPACE
      release at 40 ms is still a tap. */
  lemma RolloverThenTap()
    ensures Run(FnConfig(), Fresh(), [Ev(10_000, KEY_X, Down), Ev(20_000, KEY_SPACE, Down),
                                      Ev(30_000, KEY_X, Up), Ev(40_000, KEY_SPACE, Up)]).out
      == [Key(10_000, KEY_X, Down), Key(30_000, KEY_X, Up),
          Key(40_000, KEY_SPACE, Down), Key(40_000, KEY_SPACE, Up)]
  {
    var cfg := FnConfig();
    var s0 := Fresh();
    var r1 := Step(cfg, s0, Ev(10_000, KEY_X, Down));
    assert r1.out == [Key(10_000, KEY_X, Down)] && r1.next.pressed == {KEY_X};
    var s2 := Activate(r1.next, 20_000);
    var r3 := Step(cfg, s2, Ev(30_000, KEY_X, Up));
    assert r3.out == [Key(30_000, KEY_X, Up)];
    var r4 := Step(cfg, r3.next, Ev(40_000, KEY_SPACE, Up));
    assert r4.out == [Key(40_000, KEY_SPACE, Down), Key(40_000, KEY_SPACE, Up)];
    RunCons(cfg, r3.next, Ev(40_000, KEY_SPACE, Up), []);
    RunCons(cfg, s2, Ev(30_000, KEY_X, Up), [Ev(40_000, KEY_SPACE, Up)]);
    RunCons(cfg, r1.next, Ev(20_000, KEY_SPACE, Down), [Ev(30_000, KEY_X, Up), Ev(40_000, KEY_SPACE, Up)]);
    RunCons(cfg, s0, Ev(10_000, KEY_X, Down), [Ev(20_000, KEY_SPACE, Down), Ev(30_000, KEY_X, Up), Ev(40_000, KEY_SPACE, Up)]);
  }

  /** A key struck inside the classification window: J down at 10 ms is
      stashed, SPACE is released at 20 ms as a tap, and J's down follows
      the tap pair untranslated (J, not LEFT); its up at 30 ms then passes
      as J. */
  lemma QuickKeyTrace(m: map<Code, Code>)
    ensures Run(Config(KEY_SPACE, SwitchKeymap(m)), Fresh(), [Ev(0, KEY_SPACE, Down), Ev(10_000, KEY_J, Down),
                                      Ev(20_000, KEY_SPACE, Up), Ev(30_000, KEY_J, Up)]).out
      == [Key(20_000, KEY_SPACE, Down), Key(20_000, KEY_SPACE, Up),
          Key(10_000, KEY_J, Down), Key(30_000, KEY_J, Up)]
  {
    var cfg := Config(KEY_SPACE, SwitchKeymap(m));
    var opening := [Ev(0, KEY_SPACE, Down), Ev(10_000, KEY_J, Down), Ev(20_000, KEY_SPACE, Up)];
    TapLeavesStashTrace(m);
    var r := Run(cfg, Fresh(), opening);
    var r4 := Step(cfg, r.next, Ev(30_000, KEY_J, Up));
    assert r4.out == [Key(30_000, KEY_J, Up)];
    EngineProperties.RunOne(cfg, r.next, Ev(30_000, KEY_J, Up));
    EngineProperties.RunSplit(cfg, Fresh(), opening, [Ev(30_000, KEY_J, Up)]);
    assert opening + [Ev(30_000, KEY_J, Up)]
      == [Ev(0, KEY_SPACE, Down), Ev(10_000, KEY_J, Down), Ev(20_000, KEY_SPACE, Up), Ev(30_000, KEY_J, Up)];
  }

  /** The common opening of the next two traces: SPACE down at 0, J down
      at 10 ms resolved by the callback and written as LEFT, SPACE up at
      `t` writing nothing because it was used. Afterwards the layer is
      inactive, LEFT is down and J's release code is still recorded. */
  lemma HeldAcrossReleaseTrace(m: map<Code, Code>, t: int)
    requires KEY_J in m && m[KEY_J] == KEY_LEFT
    ensures var r := Run(Config(KEY_SPACE, SwitchKeymap(m)), Fresh(),
                         [Ev(0, KEY_SPACE, Down), Ev(10_000, KEY_J, Down), TimerFires, Ev(t, KEY_SPACE, Up)]);
      && r.out == [Key(10_000, KEY_LEFT, Down)]
      && !r.next.active && r.next.pressed == {KEY_LEFT} && r.next.releaseCodes == map[KEY_J := KEY_LEFT]
  {
    var cfg := Config(KEY_SPACE, SwitchKeymap(m));
    var s1 := Activate(Fresh(), 0);
    var s2 := s1.(pending := Some(Key(10_000, KEY_J, Down)));
    assert Step(cfg, s1, Ev(10_000, KEY_J, Down)) == Reaction(s2, []);
    var r3 := Step(cfg, s2, TimerFires);
    assert HandleActive(cfg, s2.(passed := true), Key(10_000, KEY_J, Down))
      == Act(cfg, s2.(passed := true), Key(10_000, KEY_J, Down));
    assert r3.out == [Key(10_000, KEY_LEFT, Down)];
    assert r3.next.used && r3.next.releaseCodes == map[KEY_J := KEY_LEFT] && r3.next.pressed == {KEY_LEFT};
    var r4 := Step(cfg, r3.next, Ev(t, KEY_SPACE, Up));
    assert r4.out == [] && !r4.next.active;
    RunCons(cfg, r3.next, Ev(t, KEY_SPACE, Up), []);
    RunCons(cfg, s2, TimerFires, [Ev(t, KEY_SPACE, Up)]);
    RunCons(cfg, s1, Ev(10_000, KEY_J, Down), [TimerFires, Ev(t, KEY_SPACE, Up)]);
    RunCons(cfg, Fresh(), Ev(0, KEY_SPACE, Down), [Ev(10_000, KEY_J, Down), TimerFires, Ev(t, KEY_SPACE, Up)]);
  }

  /** Release-code round trip across deactivation: after the opening
      above with SPACE up at 70 ms, J's up at 80 ms is still written as
      LEFT, from the record. */
  lemma ReleaseRecordTrace(m: map<Code, Code>)
    requires KEY_J in m && m[KEY_J] == KEY_LEFT
    ensures Run(Config(KEY_SPACE, SwitchKeymap(m)), Fresh(), [Ev(0, KEY_SPACE, Down), Ev(10_000, KEY_J, Down), TimerFires,
                                      Ev(70_000, KEY_SPACE, Up), Ev(80_000, KEY_J, Up)]).out
      == [Key(10_000, KEY_LEFT, Down), Key(80_000, KEY_LEFT, Up)]
  {
    var cfg := Config(KEY_SPACE, SwitchKeymap(m));
    var opening := [Ev(0, KEY_SPACE, Down), Ev(10_000, KEY_J, Down), TimerFires, Ev(70_000, KEY_SPACE, Up)];
    HeldAcrossReleaseTrace(m, 70_000);
    var r := Run(cfg, Fresh(), opening);
    var r5 := Step(cfg, r.next, Ev(80_000, KEY_J, Up));
    assert r5.out == [Key(80_000, KEY_LEFT, Up)];
    EngineProperties.RunOne(cfg, r.next, Ev(80_000, KEY_J, Up));
    EngineProperties.RunSplit(cfg, Fresh(), opening, [Ev(80_000, KEY_J, Up)]);
    assert opening + [Ev(80_000, KEY_J, Up)] == [Ev(0, KEY_SPACE, Down), Ev(10_000, KEY_J, Down), TimerFires,
                                                  Ev(70_000, KEY_SPACE, Up), Ev(80_000, KEY_J, Up)];
  }

  /** As written, a key repeat after deactivation consumes the release
      record: J held past the SPACE release repeats as LEFT, but J's up
      then finds no record, J itself is not down, and the up is dropped,
      so LEFT stays down downstream. */
  lemma StrandedKeyTrace(m: map<Code, Code>)
    requires KEY_J in m && m[KEY_J] == KEY_LEFT
    ensures var r := Run(Config(KEY_SPACE, SwitchKeymap(m)), Fresh(), [Ev(0, KEY_SPACE, Down), Ev(10_000, KEY_J, Down), TimerFires,
                                              Ev(600_000, KEY_SPACE, Up), Ev(700_000, KEY_J, Hold),
                                              Ev(800_000, KEY_J, Up)]);
      && r.out == [Key(10_000, KEY_LEFT, Down), Key(700_000, KEY_LEFT, Hold)]
      && KEY_LEFT in r.next.pressed
  {
    var cfg := Config(KEY_SPACE, SwitchKeymap(m));
    var opening := [Ev(0, KEY_SPACE, Down), Ev(10_000, KEY_J, Down), TimerFires, Ev(600_000, KEY_SPACE, Up)];
    var rest := [Ev(700_000, KEY_J, Hold), Ev(800_000, KEY_J, Up)];
    HeldAcrossReleaseTrace(m, 600_000);
    var r := Run(cfg, Fresh(), opening);
    var r5 := Step(cfg, r.next, Ev(700_000, KEY_J, Hold));
    assert r5.out == [Key(700_000, KEY_LEFT, Hold)];
    assert r5.next.releaseCodes == map[] && r5.next.pressed == {KEY_LEFT};
    var r6 := Step(cfg, r5.next, Ev(800_000, KEY_J, Up));
    assert r6.out == [] && r6.next.pressed == {KEY_LEFT};
    RunCons(cfg, r5.next, Ev(800_000, KEY_J, Up), []);
    RunCons(cfg, r.next, Ev(700_000, KEY_J, Hold), [Ev(800_000, KEY_J, Up)]);
    EngineProperties.RunSplit(cfg, Fresh(), opening, rest);
    assert opening + rest == [Ev(0, KEY_SPACE, Down), Ev(10_000, KEY_J, Down), TimerFires,
                              Ev(600_000, KEY_SPACE, Up), Ev(700_000, KEY_J, Hold), Ev(800_000, KEY_J, Up)];
  }

  /** A second way to strand a key, as written: after the opening above
      with SPACE up at 70 ms, SPACE is pressed again at 100 ms and J's up
      at 110 ms becomes the new activation's stashed first event. The tap
      at 120 ms forwards it unrecorded as J's up, so LEFT stays down and
      J's record is never consumed. */
  lemma StashedUpStrandsKeyTrace(m: map<Code, Code>)
    requires KEY_J in m && m[KEY_J] == KEY_LEFT
    ensures var r := Run(Config(KEY_SPACE, SwitchKeymap(m)), Fresh(),
                         [Ev(0, KEY_SPACE, Down), Ev(10_000, KEY_J, Down), TimerFires, Ev(70_000, KEY_SPACE, Up),
                          Ev(100_000, KEY_SPACE, Down), Ev(110_000, KEY_J, Up), Ev(120_000, KEY_SPACE, Up)]);
      && r.out == [Key(10_000, KEY_LEFT, Down), Key(120_000, KEY_SPACE, Down), Key(120_000, KEY_SPACE, Up),
                   Key(110_000, KEY_J, Up)]
      && KEY_LEFT in r.next.pressed && KEY_J in r.next.releaseCodes
  {
    var cfg := Config(KEY_SPACE, SwitchKeymap(m));
    var opening := [Ev(0, KEY_SPACE, Down), Ev(10_000, KEY_J, Down), TimerFires, Ev(70_000, KEY_SPACE, Up)];
    var rest := [Ev(100_000, KEY_SPACE, Down), Ev(110_000, KEY_J, Up), Ev(120_000, KEY_SPACE, Up)];
    HeldAcrossReleaseTrace(m, 70_000);
    var r := Run(cfg, Fresh(), opening);
    var s5 := Activate(r.next, 100_000);
    assert Step(cfg, r.next, Ev(100_000, KEY_SPACE, Down)) == Reaction(s5, []);
    var s6 := s5.(pending := Some(Key(110_000, KEY_J, Up)));
    assert Step(cfg, s5, Ev(110_000, KEY_J, Up)) == Reaction(s6, []);
    var r7 := Step(cfg, s6, Ev(120_000, KEY_SPACE, Up));
    assert r7.out == [Key(120_000, KEY_SPACE, Down), Key(120_000, KEY_SPACE, Up), Key(110_000, KEY_J, Up)];
    assert r7.next.pressed == {KEY_LEFT} && r7.next.releaseCodes == map[KEY_J := KEY_LEFT];
    RunCons(cfg, s6, Ev(120_000, KEY_SPACE, Up), []);
    RunCons(cfg, s5, Ev(110_000, KEY_J, Up), [Ev(120_000, KEY_SPACE, Up)]);
    RunCons(cfg, r.next, Ev(100_000, KEY_SPACE, Down), [Ev(110_000, KEY_J, Up), Ev(120_000, KEY_SPACE, Up)]);
    EngineProperties.RunSplit(cfg, Fresh(), opening, rest);
    assert opening + rest == [Ev(0, KEY_SPACE, Down), Ev(10_000, KEY_J, Down), TimerFires, Ev(70_000, KEY_SPACE, Up),
                              Ev(100_000, KEY_SPACE, Down), Ev(110_000, KEY_J, Up), Ev(120_000, KEY_SPACE, Up)];
  }

  /** Opening of the quick-key and repeated-release traces: a tap with J
      struck just before it leaves the layer inactive and unused, J down
      downstream without a release record, and J's down still stashed and
      unresolved. */
  lemma TapLeavesStashTrace(m: map<Code, Code>)
    ensures var r := Run(Config(KEY_SPACE, SwitchKeymap(m)), Fresh(),
                         [Ev(0, KEY_SPACE, Down), Ev(10_000, KEY_J, Down), Ev(20_000, KEY_SPACE, Up)]);
      && r.out == [Key(20_000, KEY_SPACE, Down), Key(20_000, KEY_SPACE, Up), Key(10_000, KEY_J, Down)]
      && !r.next.active && !r.next.used && r.next.activatedAt == Some(0)
      && r.next.pending == Some(Key(10_000, KEY_J, Down)) && !r.next.passed
      && r.next.pressed == {KEY_J} && r.next.releaseCodes == map[]
  {
    var cfg := Config(KEY_SPACE, SwitchKeymap(m));
    var s1 := Activate(Fresh(), 0);
    var s2 := s1.(pending := Some(Key(10_000, KEY_J, Down)));
    assert Step(cfg, s1, Ev(10_000, KEY_J, Down)) == Reaction(s2, []);
    var r3 := Step(cfg, s2, Ev(20_000, KEY_SPACE, Up));
    assert r3.out == [Key(20_000, KEY_SPACE, Down), Key(20_000, KEY_SPACE, Up), Key(10_000, KEY_J, Down)];
    RunCons(cfg, s2, Ev(20_000, KEY_SPACE, Up), []);
    RunCons(cfg, s1, Ev(10_000, KEY_J, Down), [Ev(20_000, KEY_SPACE, Up)]);
    RunCons(cfg, Fresh(), Ev(0, KEY_SPACE, Down), [Ev(10_000, KEY_J, Down), Ev(20_000, KEY_SPACE, Up)]);
  }

  /** As written, a tap forwards the stashed event without resolving it,
      and an activation-key up is handled in every state: a second SPACE
      up at 30 ms, with no down between, writes the tap pair and the
      stashed J down a second time. */
  lemma RepeatedReleaseTrace(m: map<Code, Code>)
    ensures Run(Config(KEY_SPACE, SwitchKeymap(m)), Fresh(),
                [Ev(0, KEY_SPACE, Down), Ev(10_000, KEY_J, Down), Ev(20_000, KEY_SPACE, Up), Ev(30_000, KEY_SPACE, Up)]).out
      == [Key(20_000, KEY_SPACE, Down), Key(20_000, KEY_SPACE, Up), Key(10_000, KEY_J, Down),
          Key(30_000, KEY_SPACE, Down), Key(30_000, KEY_SPACE, Up), Key(10_000, KEY_J, Down)]
  {
    var cfg := Config(KEY_SPACE, SwitchKeymap(m));
    var opening := [Ev(0, KEY_SPACE, Down), Ev(10_000, KEY_J, Down), Ev(20_000, KEY_SPACE, Up)];
    TapLeavesStashTrace(m);
    var r := Run(cfg, Fresh(), opening);
    var r4 := Step(cfg, r.next, Ev(30_000, KEY_SPACE, Up));
    assert r4.out == [Key(30_000, KEY_SPACE, Down), Key(30_000, KEY_SPACE, Up), Key(10_000, KEY_J, Down)];
    EngineProperties.RunOne(cfg, r.next, Ev(30_000, KEY_SPACE, Up));
    EngineProperties.RunSplit(cfg, Fresh(), opening, [Ev(30_000, KEY_SPACE, Up)]);
    assert opening + [Ev(30_000, KEY_SPACE, Up)]
      == [Ev(0, KEY_SPACE, Down), Ev(10_000, KEY_J, Down), Ev(20_000, KEY_SPACE, Up), Ev(30_000, KEY_SPACE, Up)];
  }

  /** A stash lost on a long release, as written: J struck 10 ms before
      SPACE is released at 600 ms is stashed; the release is not a tap
      and the activation was not used, so nothing is written, and the
      callback then finds the layer inactive. J's down is never written,
      so its up is dropped too and the whole keystroke disappears. */
  lemma LongReleaseLosesStashTrace(m: map<Code, Code>)
    ensures Run(Config(KEY_SPACE, SwitchKeymap(m)), Fresh(),
                [Ev(0, KEY_SPACE, Down), Ev(590_000, KEY_J, Down), Ev(600_000, KEY_SPACE, Up), TimerFires,
                 Ev(650_000, KEY_J, Up)]).out == []
  {
    var cfg := Config(KEY_SPACE, SwitchKeymap(m));
    var s1 := Activate(Fresh(), 0);
    var s2 := s1.(pending := Some(Key(590_000, KEY_J, Down)));
    assert Step(cfg, s1, Ev(590_000, KEY_J, Down)) == Reaction(s2, []);
    var s3 := s2.(active := false);
    assert Step(cfg, s2, Ev(600_000, KEY_SPACE, Up)) == Reaction(s3, []);
    assert Step(cfg, s3, TimerFires) == Reaction(s3, []);
    assert Step(cfg, s3, Ev(650_000, KEY_J, Up)).out == [];
    RunCons(cfg, s3, Ev(650_000, KEY_J, Up), []);
    RunCons(cfg, s3, TimerFires, [Ev(650_000, KEY_J, Up)]);
    RunCons(cfg, s2, Ev(600_000, KEY_SPACE, Up), [TimerFires, Ev(650_000, KEY_J, Up)]);
    RunCons(cfg, s1, Ev(590_000, KEY_J, Down), [Ev(600_000, KEY_SPACE, Up), TimerFires, Ev(650_000, KEY_J, Up)]);
    RunCons(cfg, Fresh(), Ev(0, KEY_SPACE, Down),
            [Ev(590_000, KEY_J, Down), Ev(600_000, KEY_SPACE, Up), TimerFires, Ev(650_000, KEY_J, Up)]);
  }

  /** Companion modifier, opening: with SPACE as the key and left Ctrl as
      the modifier, C pressed at 100 ms and resolved by the callback is
      written as Ctrl down then C down, both at 100 ms. */
  lemma ModifierOpeningTrace()
    ensures var r := Run(DualRoleMod.New(KEY_SPACE, KEY_LEFTCTRL).cfg, Fresh(),
                         [Ev(0, KEY_SPACE, Down), Ev(100_000, KEY_C, Down), TimerFires]);
      && r.out == [Key(100_000, KEY_LEFTCTRL, Down), Key(100_000, KEY_C, Down)]
      && r.next.active && r.next.used && r.next.pressed == {KEY_LEFTCTRL, KEY_C}
  {
    var cfg := DualRoleMod.New(KEY_SPACE, KEY_LEFTCTRL).cfg;
    var s1 := Activate(Fresh(), 0);
    var s2 := s1.(pending := Some(Key(100_000, KEY_C, Down)));
    assert Step(cfg, s1, Ev(100_000, KEY_C, Down)) == Reaction(s2, []);
    var r3 := Step(cfg, s2, TimerFires);
    assert HandleActive(cfg, s2.(passed := true), Key(100_000, KEY_C, Down))
      == Act(cfg, s2.(passed := true), Key(100_000, KEY_C, Down));
    assert r3.out == [Key(100_000, KEY_LEFTCTRL, Down), Key(100_000, KEY_C, Down)];
    RunCons(cfg, s2, TimerFires, []);
    RunCons(cfg, s1, Ev(100_000, KEY_C, Down), [TimerFires]);
    RunCons(cfg, Fresh(), Ev(0, KEY_SPACE, Down), [Ev(100_000, KEY_C, Down), TimerFires]);
  }

  /** Companion modifier hold: after the opening above, C's up passes at
      200 ms and the SPACE release at 300 ms writes Ctrl up, so the
      modifier wraps the key. */
  lemma ModifierHoldWrapsKey()
    ensures var cfg := DualRoleMod.New(KEY_SPACE, KEY_LEFTCTRL).cfg;
      Run(cfg, Fresh(), [Ev(0, KEY_SPACE, Down), Ev(100_000, KEY_C, Down), TimerFires,
                         Ev(200_000, KEY_C, Up), Ev(300_000, KEY_SPACE, Up)]).out
      == [Key(100_000, KEY_LEFTCTRL, Down), Key(100_000, KEY_C, Down),
          Key(200_000, KEY_C, Up), Key(300_000, KEY_LEFTCTRL, Up)]
  {
    var cfg := DualRoleMod.New(KEY_SPACE, KEY_LEFTCTRL).cfg;
    var opening := [Ev(0, KEY_SPACE, Down), Ev(100_000, KEY_C, Down), TimerFires];
    var rest := [Ev(200_000, KEY_C, Up), Ev(300_000, KEY_SPACE, Up)];
    ModifierOpeningTrace();
    var r := Run(cfg, Fresh(), opening);
    var r4 := Step(cfg, r.next, Ev(200_000, KEY_C, Up));
    assert r4.out == [Key(200_000, KEY_C, Up)];
    var r5 := Step(cfg, r4.next, Ev(300_000, KEY_SPACE, Up));
    assert r5.out == [Key(300_000, KEY_LEFTCTRL, Up)];
    RunCons(cfg, r4.next, Ev(300_000, KEY_SPACE, Up), []);
    RunCons(cfg, r.next, Ev(200_000, KEY_C, Up), [Ev(300_000, KEY_SPACE, Up)]);
    EngineProperties.RunSplit(cfg, Fresh(), opening, rest);
    assert opening + rest == [Ev(0, KEY_SPACE, Down), Ev(100_000, KEY_C, Down), TimerFires,
                              Ev(200_000, KEY_C, Up), Ev(300_000, KEY_SPACE, Up)];
  }

  /** The same lost stash with a companion modifier: C's down is never
      written, and its up, arriving while the layer is inactive, is
      written as a stray up. */
  lemma ModifierLongReleaseLosesStash()
    ensures var cfg := DualRoleMod.New(KEY_SPACE, KEY_LEFTCTRL).cfg;
      Run(cfg, Fresh(), [Ev(0, KEY_SPACE, Down), Ev(590_000, KEY_C, Down), Ev(600_000, KEY_SPACE, Up), TimerFires,
                         Ev(650_000, KEY_C, Up)]).out
      == [Key(650_000, KEY_C, Up)]
  {
    var cfg := DualRoleMod.New(KEY_SPACE, KEY_LEFTCTRL).cfg;
    var s1 := Activate(Fresh(), 0);
    var s2 := s1.(pending := Some(Key(590_000, KEY_C, Down)));
    assert Step(cfg, s1, Ev(590_000, KEY_C, Down)) == Reaction(s2, []);
    var s3 := s2.(active := false);
    assert Step(cfg, s2, Ev(600_000, KEY_SPACE, Up)) == Reaction(s3, []);
    assert Step(cfg, s3, TimerFires) == Reaction(s3, []);
    assert Step(cfg, s3, Ev(650_000, KEY_C, Up)).out == [Key(650_000, KEY_C, Up)];
    RunCons(cfg, s3, Ev(650_000, KEY_C, Up), []);
    RunCons(cfg, s3, TimerFires, [Ev(650_000, KEY_C, Up)]);
    RunCons(cfg, s2, Ev(600_000, KEY_SPACE, Up), [TimerFires, Ev(650_000, KEY_C, Up)]);
    RunCons(cfg, s1, Ev(590_000, KEY_C, Down), [Ev(600_000, KEY_SPACE, Up), TimerFires, Ev(650_000, KEY_C, Up)]);
    RunCons(cfg, Fresh(), Ev(0, KEY_SPACE, Down),
            [Ev(590_000, KEY_C, Down), Ev(600_000, KEY_SPACE, Up), TimerFires, Ev(650_000, KEY_C, Up)]);
  }

  /** `used` survives deactivation, as written: after the opening above,
      a second SPACE up at 400 ms with no down between writes a second
      Ctrl up. */
  lemma RepeatedModifierReleaseTrace()
    ensures var cfg := DualRoleMod.New(KEY_SPACE, KEY_LEFTCTRL).cfg;
      Run(cfg, Fresh(), [Ev(0, KEY_SPACE, Down), Ev(100_000, KEY_C, Down), TimerFires,
                         Ev(300_000, KEY_SPACE, Up), Ev(400_000, KEY_SPACE, Up)]).out
      == [Key(100_000, KEY_LEFTCTRL, Down), Key(100_000, KEY_C, Down),
          Key(300_000, KEY_LEFTCTRL, Up), Key(400_000, KEY_LEFTCTRL, Up)]
  {
    var cfg := DualRoleMod.New(KEY_SPACE, KEY_LEFTCTRL).cfg;
    var opening := [Ev(0, KEY_SPACE, Down), Ev(100_000, KEY_C, Down), TimerFires];
    var rest := [Ev(300_000, KEY_SPACE, Up), Ev(400_000, KEY_SPACE, Up)];
    ModifierOpeningTrace();
    var r := Run(cfg, Fresh(), opening);
    var r4 := Step(cfg, r.next, Ev(300_000, KEY_SPACE, Up));
    assert r4.out == [Key(300_000, KEY_LEFTCTRL, Up)];
    assert r4.next.used;
    var r5 := Step(cfg, r4.next, Ev(400_000, KEY_SPACE, Up));
    assert r5.out == [Key(400_000, KEY_LEFTCTRL, Up)];
    RunCons(cfg, r4.next, Ev(400_000, KEY_SPACE, Up), []);
    RunCons(cfg, r.next, Ev(300_000, KEY_SPACE, Up), [Ev(400_000, KEY_SPACE, Up)]);
    EngineProperties.RunSplit(cfg, Fresh(), opening, rest);
    assert opening + rest == [Ev(0, KEY_SPACE, Down), Ev(100_000, KEY_C, Down), TimerFires,
                              Ev(300_000, KEY_SPACE, Up), Ev(400_000, KEY_SPACE, Up)];
  }

  // The traces above, for the SpaceFn layer's fixed keymap.

  lemma HoldTranslatesThroughKeymap()
    ensures Run(FnConfig(), Fresh(), [Ev(0, KEY_SPACE, Down), Ev(80_000, KEY_I, Down),
                                      Ev(150_000, KEY_I, Up), Ev(200_000, KEY_SPACE, Up)]).out
      == [Key(80_000, KEY_UP, Down), Key(150_000, KEY_UP, Up)]
  {
    FixedKeymapNavigation();
    HoldTrace(FixedKeymap());
  }

  lemma HoldWithTimerTranslatesThroughKeymap()
    ensures Run(FnConfig(), Fresh(), [Ev(0, KEY_SPACE, Down), Ev(80_000, KEY_I, Down), TimerFires,
                                      Ev(150_000, KEY_I, Up), Ev(200_000, KEY_SPACE, Up)]).out
      == [Key(80_000, KEY_UP, Down), Key(150_000, KEY_UP, Up)]
  {
    FixedKeymapNavigation();
    HoldWithTimerTrace(FixedKeymap());
  }

  lemma QuickKeyAfterTapIsUntranslated()
    ensures Run(FnConfig(), Fresh(), [Ev(0, KEY_SPACE, Down), Ev(10_000, KEY_J, Down),
                                      Ev(20_000, KEY_SPACE, Up), Ev(30_000, KEY_J, Up)]).out
      == [Key(20_000, KEY_SPACE, Down), Key(20_000, KEY_SPACE, Up),
          Key(10_000, KEY_J, Down), Key(30_000, KEY_J, Up)]
  {
    QuickKeyTrace(FixedKeymap());
  }

  lemma ReleaseAfterDeactivationUsesRecord()
    ensures Run(FnConfig(), Fresh(), [Ev(0, KEY_SPACE, Down), Ev(10_000, KEY_J, Down), TimerFires,
                                      Ev(70_000, KEY_SPACE, Up), Ev(80_000, KEY_J, Up)]).out
      == [Key(10_000, KEY_LEFT, Down), Key(80_000, KEY_LEFT, Up)]
  {
    FixedKeymapNavigation();
    ReleaseRecordTrace(FixedKeymap());
  }

  lemma RepeatAfterDeactivationStrandsKey()
    ensures var r := Run(FnConfig(), Fresh(), [Ev(0, KEY_SPACE, Down), Ev(10_000, KEY_J, Down), TimerFires,
                                              Ev(600_000, KEY_SPACE, Up), Ev(700_000, KEY_J, Hold),
                                              Ev(800_000, KEY_J, Up)]);
      && r.out == [Key(10_000, KEY_LEFT, Down), Key(700_000, KEY_LEFT, Hold)]
      && KEY_LEFT in r.next.pressed
  {
    FixedKeymapNavigation();
    StrandedKeyTrace(FixedKeymap());
  }

  lemma StashedUpAfterReactivationStrandsKey()
    ensures var r := Run(FnConfig(), Fresh(), [Ev(0, KEY_SPACE, Down), Ev(10_000, KEY_J, Down), TimerFires,
                                              Ev(70_000, KEY_SPACE, Up), Ev(100_000, KEY_SPACE, Down),
                                              Ev(110_000, KEY_J, Up), Ev(120_000, KEY_SPACE, Up)]);
      && r.out == [Key(10_000, KEY_LEFT, Down), Key(120_000, KEY_SPACE, Down), Key(120_000, KEY_SPACE, Up),
                   Key(110_000, KEY_J, Up)]
      && KEY_LEFT in r.next.pressed
  {
    FixedKeymapNavigation();
    StashedUpStrandsKeyTrace(FixedKeymap());
  }

  lemma RepeatedReleaseForwardsStashTwice()
    ensures Run(FnConfig(), Fresh(), [Ev(0, KEY_SPACE, Down), Ev(10_000, KEY_J, Down),
                                      Ev(20_000, KEY_SPACE, Up), Ev(30_000, KEY_SPACE, Up)]).out
      == [Key(20_000, KEY_SPACE, Down), Key(20_000, KEY_SPACE, Up), Key(10_000, KEY_J, Down),
          Key(30_000, KEY_SPACE, Down), Key(30_000, KEY_SPACE, Up), Key(10_000, KEY_J, Down)]
  {
    RepeatedReleaseTrace(FixedKeymap());
  }
}

=== FILE: space_fn.dfy ===
/** The SpaceFn program: the fixed-keymap engine driven directly by the
    device's batches of events, writing to the virtual device and
    issuing one sync after each whole batch. */
module SpaceFn {
  import opened Events
  import opened DualRoleEngine
  import opened DualRoleFn

  /** What reaches the virtual device: an event, or a sync report. */
  datatype Written = Wrote(ev: Event) | Syn

  /** What wakes the program: a batch read from the device, or the
      delayed first-key callback. */
  datatype Wakeup = Batch(events: seq<Event>) | Timer

  function Wrap(out: seq<Event>): (w: seq<Written>)
    ensures |w| == |out| && forall j | 0 <= j < |out| :: w[j] == Wrote(out[j])
  {
    seq(|out|, j requires 0 <= j < |out| => Wrote(out[j]))
  }

  /** The events of a batch as engine inputs, in order. */
  function Receives(events: seq<Event>): (r: seq<Input>)
    ensures |r| == |events| && forall j | 0 <= j < |events| :: r[j] == Receive(events[j])
  {
    seq(|events|, j requires 0 <= j < |events| => Receive(events[j]))
  }

  /** The engine inputs a wakeup stands for. */
  function Inputs(w: Wakeup): seq<Input>
  {
    match w
    case Batch(events) => Receives(events)
    case Timer => [TimerFires]
  }

  /** The engine inputs of a whole session, wakeup after wakeup. */
  function Flatten(ws: seq<Wakeup>): seq<Input>
    decreases |ws|
  {
    if ws == [] then [] else Flatten(ws[..|ws| - 1]) + Inputs(ws[|ws| - 1])
  }

  function CountBatches(ws: seq<Wakeup>): nat
    decreases |ws|
  {
    if ws == [] then 0 else CountBatches(ws[..|ws| - 1]) + (if ws[|ws| - 1].Batch? then 1 else 0)
  }

  /** The events written, without the sync reports. */
  function EventsOf(w: seq<Written>): seq<Event>
    decreases |w|
  {
    if w == [] then [] else (if w[0].Wrote? then [w[0].ev] else []) + EventsOf(w[1..])
  }

  function CountSyn(w: seq<Written>): nat
    decreases |w|
  {
    if w == [] then 0 else (if w[0].Syn? then 1 else 0) + CountSyn(w[1..])
  }

  lemma {:induction false} EventsOfAppend(a: seq<Written>, b: seq<Written>)
    ensures EventsOf(a + b) == EventsOf(a) + EventsOf(b)
    ensures CountSyn(a + b) == CountSyn(a) + CountSyn(b)
    decreases |a|
  {
    if a == [] {
      assert a + b == b;
    } else {
      assert (a + b)[0] == a[0];
      assert (a + b)[1..] == a[1..] + b;
      EventsOfAppend(a[1..], b);
    }
  }

  lemma {:induction false} WrapHasNoSyn(out: seq<Event>)
    ensures EventsOf(Wrap(out)) == out && CountSyn(Wrap(out)) == 0
    decreases |out|
  {
    if out != [] {
      assert Wrap(out)[1..] == Wrap(out[1..]);
      WrapHasNoSyn(out[1..]);
    }
  }

  /** `_handle_events`: every event of the batch goes through the engine,
      strictly in order (a dropped event only skips itself), and one sync
      follows the whole batch. */
  method HandleEvents(s: Engine, events: seq<Event>) returns (next: Engine, written: seq<Written>)
    ensures var r := Run(FnConfig(), s, Receives(events));
      next == r.next && written == Wrap(r.out) + [Syn]
  {
    var state := s;
    var out: seq<Event> := [];
    for i := 0 to |events|
      invariant Run(FnConfig(), s, Receives(events[..i])) == Reaction(state, out)
    {
      var r := Send(FnConfig(), state, events[i]);
      EngineProperties.RunSplit(FnConfig(), s, Receives(events[..i]), [Receive(events[i])]);
      EngineProperties.RunOne(FnConfig(), state, Receive(events[i]));
      assert Receives(events[..i + 1]) == Receives(events[..i]) + [Receive(events[i])];
      state := r.next;
      out := out + r.out;
    }
    assert events[..|events|] == events;
    next := state;
    written := Wrap(out) + [Syn];
  }

  /** The delayed callback writes its events without a sync of its own;
      they are flushed by the next batch's sync. */
  function OnTimer(s: Engine): (r: (Engine, seq<Written>))
    ensures var e := TimerFired(FnConfig(), s);
      r.0 == e.next && EventsOf(r.1) == e.out && CountSyn(r.1) == 0
  {
    var e := TimerFired(FnConfig(), s);
    WrapHasNoSyn(e.out);
    (e.next, Wrap(e.out))
  }

  /** One wakeup: a batch is handled and synced, a timer writes unsynced. */
  method Wake(s: Engine, w: Wakeup) returns (next: Engine, chunk: seq<Written>)
    ensures var r := Run(FnConfig(), s, Inputs(w));
      next == r.next && EventsOf(chunk) == r.out
    ensures CountSyn(chunk) == if w.Batch? then 1 else 0
  {
    match w {
      case Batch(events) =>
        next, chunk := HandleEvents(s, events);
        var out := Run(FnConfig(), s, Receives(events)).out;
        WrapHasNoSyn(out);
        EventsOfAppend(Wrap(out), [Syn]);
        assert EventsOf([Syn]) == [] && CountSyn([Syn]) == 1;
        assert out + [] == out;
      case Timer =>
        var (st, c) := OnTimer(s);
        next, chunk := st, c;
        EngineProperties.RunOne(FnConfig(), s, TimerFires);
    }
  }

  /** A whole session. Batching changes nothing about what is written,
      only where the syncs fall: the events written are exactly the
      engine's output for all inputs in order, and there is one sync per
      batch. */
  method RunSession(s: Engine, ws: seq<Wakeup>) returns (next: Engine, written: seq<Written>)
    ensures var r := Run(FnConfig(), s, Flatten(ws));
      next == r.next && EventsOf(written) == r.out
    ensures CountSyn(written) == CountBatches(ws)
  {
    next := s;
    written := [];
    for i := 0 to |ws|
      invariant Run(FnConfig(), s, Flatten(ws[..i])).next == next
      invariant Run(FnConfig(), s, Flatten(ws[..i])).out == EventsOf(written)
      invariant CountSyn(written) == CountBatches(ws[..i])
    {
      assert ws[..i + 1][..i] == ws[..i];
      assert Flatten(ws[..i + 1]) == Flatten(ws[..i]) + Inputs(ws[i]);
      assert CountBatches(ws[..i + 1]) == CountBatches(ws[..i]) + (if ws[i].Batch? then 1 else 0);
      EngineProperties.RunSplit(FnConfig(), s, Flatten(ws[..i]), Inputs(ws[i]));
      var state, chunk := Wake(next, ws[i]);
      EventsOfAppend(written, chunk);
      next := state;
      written := written + chunk;
    }
    assert ws[..|ws|] == ws;
  }
}
